=== FILE: README.md ===
# stackTacToe, modelled in Dafny

stackTacToe is a 3x3x3 tic-tac-toe game. A Flask/Socket.IO server
(`backend/app.py`) keeps three in-memory tables:

- `games`, from a game id to the game;
- `short_code_mapping`, from a join code to a game id;
- `player_sessions`, from a socket id to a game id and a mark.

The server serves the HTTP routes that create, join, play and read a game, and
the socket handlers that manage rooms. A React client talks to it through the
hook `frontend/src/utils/useGame.js`. `App.jsx` picks the document title and
the screen, and `TicTacToeGrid.jsx` lays out and colours the 27 cubes.

The model has these parts:

- **`wire.dfy`** (`Wire`): nullable values and the truthiness that Python and
  JavaScript share on them. It also holds the serialized game (`Snapshot`)
  that travels from server to client.
- **`text.dfy`** (`Text`): the text a game id and its join code are made from.
  A game id is `str(uuid4())`. The join code is
  `str(int(id.replace('-', ''), 16) % 10**6)`, which the model proves equal to
  the UUID's value modulo one million, as 1 to 6 decimal digits.
- **`backend.dfy`** (`Backend`): every route and socket handler as a pure
  transition. Each one yields the new tables, the reply, and the room
  operations and broadcasts it performed, in order.
- **`backend_invariants.dfy`** (`BackendInvariants`): a registry invariant
  that every request preserves, and what that invariant rules out.
- **`client.dfy`** (`Client`): each `useGame` handler as the hook's setters,
  requests and emits applied in source order. The parent's `mode` and
  `screen` are part of the state. Sent requests are logged in `calls` and
  socket emits in `outbox`. Server answers are inputs, so a rejected promise
  is `Failed`.
- **`client_properties.dfy`** (`ClientProperties`): what sequences of client
  handlers guarantee, beyond each handler's own contract.
- **`grid.dfy`** (`Grid`): the render order of the 27 positions, the cube
  colour, and the click guard.
- **`app.dfy`** (`AppShell`): the title effect and the screen dispatch.
- **`sync.dfy`** (`Sync`): server and client together. Every `game_update`
  a route broadcasts equals what the state endpoint then returns, so a client
  that refetches after a push shows the same game. A client's emits are
  delivered to the socket handlers, which ties a rematch to the opponent's
  switch and a creator's `leave` to the game it leaves behind.

Some behaviours of the code that a reader might not expect:

- `new_game` always returns a join code, single games included. Such a code
  resolves, but joining it answers "Game already full"
  (`BackendInvariants.SingleGameIsFull`).
- A waiting game's status is `"waiting"`.
- A join code is 1 to 6 decimal digits: leading zeros of the residue are
  dropped.
- A socket payload key that is missing raises, but one that is JSON `null` is
  used as the value `None`. `join` with a null id joins the room `None`, and
  `new_game` with a null old id sends `switch_game` to the sender alone.
- Both slots are filled by HTTP routes, so they hold the caller's
  `remote_addr` (an HTTP request has no `sid`), never a socket id. As a
  consequence a socket `leave` finds the sid in neither slot and frees
  nothing: a creator who goes home before anyone joins leaves the game
  waiting with its code still valid (`BackendInvariants.CreatorLeaveKeepsGame`,
  `Sync.CreatorGoesHomeGameStays`).

## Model

| member | source | states |
|---|---|---|
| Text.UuidLength | backend/app.py:61 | The text of a game id is always 36 characters long. |
| Text.HexRoundTrip | backend/app.py:61-64 | Reading the zero-padded lower-case hex text of a value back with base 16 gives the value, and every character is a hex digit. |
| Text.UuidRoundTrip | backend/app.py:61-64 | Removing the hyphens from a UUID's text and parsing the rest as hex gives back the UUID's 128-bit value. |
| Text.DecimalRoundTrip | backend/app.py:64 | Parsing the decimal text of a non-negative number gives the number back, so no two numbers share a text. |
| Text.JoinCodeOfUuid | backend/app.py:61-65 | A fresh game's join code is the decimal text of the UUID's value modulo one million: 1 to 6 digits whose value is that residue. |
| Backend.SnapshotShowsRulesAndStatus | backend/app.py:32-39 | Two games serialize alike exactly when their rules state and status agree, so the snapshot reveals neither player slots nor player kinds. |
| Backend.DropCodes | backend/app.py:166-169 | After a game is discarded, exactly the join codes pointing at other games remain, each still naming the same game. |
| Backend.CreateGame | backend/app.py:42-67 | An unknown or missing mode answers 404 and changes nothing. Otherwise the new game is stored under the UUID text and its code under the derived code, and no other game is touched. X is the caller's sid or address. The rules state comes from `Game()`. A single game has the robot as O and keeps `Game()`'s status. A double game has an empty O slot, two human players and status "waiting". |
| Backend.JoinByCode | backend/app.py:70-88 | An unknown code, or one whose game is gone, answers 404 with no change. A full game answers 400 with no change. Otherwise the caller's address takes O, the game becomes active, and the room gets the serialized game; nothing else changes. |
| Backend.PlayerMove | backend/app.py:91-118 | An unknown game answers 404. A current player with no kind entry answers 500. A human's turn asked by a caller in neither slot answers 403 "Not your turn.". A missing coordinate answers 400. These change nothing. A rejected move answers 400 "Invalid move" and keeps what the engine left. With no winner and no kind for O the route fails with 500 after the move. Otherwise it answers 200: the robot replies exactly when there is no winner and O is not human, and the room gets the stored game. Only that game's rules state can change. |
| Backend.GameState | backend/app.py:121-126 | An unknown game answers 404 "Game not found". A known one answers 200 with that game serialized. The tables never change and nothing is sent. |
| Backend.OnJoin | backend/app.py:129-145 | A missing id raises. A null id joins the room `None` and does nothing else. An unknown game only joins the room. Otherwise the sid's session is recorded only when it holds a slot. The status changes only from waiting to active, and only when both slots are filled. The room then gets the game. |
| Backend.Vacate | backend/app.py:158-162 | The sid's slot is freed: X's if it holds X, else O's if it holds O, and neither otherwise. |
| Backend.OnLeave | backend/app.py:148-175 | A missing id raises. A null id or an unknown game only leaves that room. For a known game the sid's session is dropped and its slot freed. The game is discarded, with all its codes and no event, exactly when both slots end up empty. Otherwise it stays "waiting", `player_left` goes to the room, and the room is left last. |
| Backend.OnNewGame | backend/app.py:178-182 | With both keys present, it relays `switch_game` with the new id, or null, to the old room. A null old id sends it to the sender's own room. With either key missing, it raises and relays nothing. The tables never change. |
| Backend.OnDisconnect | backend/app.py:184-208 | An unknown sid changes nothing. A sid whose game is gone only loses its session. Otherwise the session goes and the recorded slot, X or O, is freed. The game is discarded with its codes, silently, exactly when both slots are empty. Otherwise it is "waiting" and the room is told. Other games are untouched. |
| Backend.Step | backend/app.py:42-208 | Exactly the four HTTP routes answer with a status code. Reading a game and relaying `new_game` never change the tables, and creating a game pushes nothing. |
| Backend.GamesComeAndGo | backend/app.py:42-208 | A game appears only through `new_game` and disappears only through a socket `leave` or disconnect. |
| BackendInvariants.EmptyValid | backend/app.py:28-30 | The empty tables at start-up satisfy the registry invariant. |
| BackendInvariants.CreatePreserves | backend/app.py:42-67 | Creating a game keeps every code pointing at a live game whose id it was derived from, and keeps every game typed with a known status. |
| BackendInvariants.JoinPreserves | backend/app.py:70-88 | Joining by code keeps the registry invariant. |
| BackendInvariants.MovePreserves | backend/app.py:91-118 | A move keeps the registry invariant: the route changes only a game's rules state, which the invariant does not constrain. |
| BackendInvariants.SocketJoinPreserves | backend/app.py:129-145 | The socket `join` keeps the registry invariant. |
| BackendInvariants.LeavePreserves | backend/app.py:148-175 | The socket `leave` keeps the invariant: no code is left dangling when a game is discarded. |
| BackendInvariants.DisconnectPreserves | backend/app.py:184-208 | A disconnect keeps the registry invariant. |
| BackendInvariants.StepPreserves | backend/app.py:42-208 | Every route and handler keeps the registry invariant. |
| BackendInvariants.RunPreserves | backend/app.py:28-208 | Any sequence of requests from a valid registry ends in a valid one. |
| BackendInvariants.NeverEnded | backend/app.py:165-173 | Provided `Game()` does not itself start with status "ended", after any sequence of requests from start-up no stored game has status "ended": no route or handler writes it, so the `'ended'` branch of `on_leave` is unreachable. |
| BackendInvariants.KnownCodesResolve | backend/app.py:72-76 | In a valid registry, `join_game` answers 404 exactly for codes missing from the table. |
| BackendInvariants.OneCodePerGame | backend/app.py:64-65 | In a valid registry, two codes naming the same game are the same code. |
| BackendInvariants.MoveLookupsSucceed | backend/app.py:98-101 | When the current player is a mark of a valid game, the move route never fails on the player-type lookups. |
| BackendInvariants.CreateThenJoin | backend/app.py:56-88 | A double game created and then joined with the returned code ends active. X holds the creator and O the joiner's address, and the room is sent the update. |
| BackendInvariants.SingleGameIsFull | backend/app.py:52-55 | The code of a single-player game is answered "Game already full", because the robot holds O. |
| BackendInvariants.LeaveByOutsiderKeepsGame | backend/app.py:158-173 | A `leave` from a sid in neither slot frees no slot. The game stays, marked "waiting", and its codes remain. |
| BackendInvariants.CreateKeepsSessions | backend/app.py:42-67 | Creating a game under an id no session names keeps every recorded session pointing at a live game whose slot for its mark holds that sid. |
| BackendInvariants.JoinKeepsSessions | backend/app.py:70-88 | Joining by code keeps the session table consistent with the slots. |
| BackendInvariants.MoveKeepsSessions | backend/app.py:91-118 | A move keeps the session table consistent with the slots. |
| BackendInvariants.SocketJoinKeepsSessions | backend/app.py:129-145 | The socket `join` records a session only for a sid that holds the slot of its mark. |
| BackendInvariants.LeaveKeepsSessions | backend/app.py:148-175 | The socket `leave` keeps the session table consistent with the slots. |
| BackendInvariants.DisconnectKeepsSessions | backend/app.py:184-208 | A disconnect keeps the session table consistent with the slots. |
| BackendInvariants.StepKeepsSessions | backend/app.py:42-208 | Every request whose new id, if any, no session names keeps the session table consistent. |
| BackendInvariants.RunKeepsSessions | backend/app.py:28-208 | Any sequence of requests with fresh ids keeps the session table consistent with the slots. |
| BackendInvariants.DisconnectIsLeave | backend/app.py:148-208 | With a consistent session table, disconnecting a sid whose game is live does to the tables what its `leave` of that game does. The leave sends the same events and then also leaves the room. |
| BackendInvariants.CreatorLeaveKeepsGame | backend/app.py:42-175 | A double game created over HTTP holds the creator's address in X, so the creator's socket `leave` frees nothing. The game survives exactly when there is an address, unchanged and waiting, and its code still admits a guest. |
| Sync.BroadcastMatchesState | backend/app.py:84 | Every `game_update` any request broadcasts names a live room. It carries exactly the body the state endpoint returns for that room right after. |
| Sync.PushThenFetch | frontend/src/utils/useGame.js:44-61 | For a room's push, the state endpoint answers a state, and a client that applies the push and then fetches that state holds the same game record as after the push alone. |
| Sync.SocketJoinIdempotent | backend/app.py:139-143 | A second socket `join` of the same room by the same sid leaves the tables as the first one did. |
| Sync.Sent | frontend/src/utils/useGame.js:128 | A client id arrives as a present key, null or a string, carrying the same value. |
| Sync.Deliver | frontend/src/utils/useGame.js:128-177 | A `join`, `leave` or `new_game` emit arrives as the socket event of the same name, carrying the same ids, each as a string or null. |
| Sync.RematchRelay | backend/app.py:178-182 | A successful rematch emits one `new_game`. The server relays it unchanged as `switch_game` with the new id to the old room, and an opponent that switches ends on the creator's new game id. |
| Sync.RematchNeedsGame | frontend/src/utils/useGame.js:121-122 | A rematch without a game id emits nothing, so no room is told to switch. |
| Sync.CreatorGoesHomeGameStays | backend/app.py:148-175 | A creator going home from its double game emits one `leave`. Delivered on its socket, it leaves the game, its X slot and its code as they were, and tells the room the opponent left. |
| Client.OnGameUpdate | frontend/src/utils/useGame.js:44-53 | A push writes board, turn, winner, status and win line from the snapshot, and keeps join code, game id, own mark and everything outside the game record. |
| Client.FetchGameState | frontend/src/utils/useGame.js:55-61 | A failed fetch only sends its GET. An answered one writes board, turn, winner and win line from the reply, and nothing else. |
| Client.StartSinglePlayer | frontend/src/utils/useGame.js:63-74 | Single player never writes the status and emits nothing. With both replies it shows the game screen in single mode as X with the fetched board, turn, winner and win line, and nothing else changes. A failed fetch changes only the game id and the two requests. A failed creation only sends the request. |
| Client.CreateMultiplayer | frontend/src/utils/useGame.js:76-88 | A created multiplayer game stores the returned id and code, own mark X, status waiting, double mode and the game screen, with no emit; everything else stays. A failure only sends the request. |
| Client.JoinMultiplayer | frontend/src/utils/useGame.js:90-102 | Joining posts the typed code. Success gives own mark O, status active, double mode, the game screen, and one `join` emit with the returned id; everything else stays. A failure only sends the request. |
| Client.MoveAllowed | frontend/src/utils/useGame.js:105-108 | A move goes ahead exactly when there is a game id and no winner and, in single mode, X is to move, in double mode, the own mark is to move; in any other mode nothing else is asked. |
| Client.MakeMove | frontend/src/utils/useGame.js:104-119 | A move whose guards fail changes nothing, and a request leaves exactly when they pass. A guarded-in move posts the move and refetches only after the post succeeds. It always ends with loading cleared and emits nothing, and shows the refetched state or, on any failure, the untouched game. |
| Client.NewGame | frontend/src/utils/useGame.js:121-136 | Without a game id a rematch does nothing. A failed creation only sends the request, in the current mode. A created game emits `new_game` with old and new id, switches to the new id and fetches it, changing nothing outside the game record. The winner is cleared only once the fetch answers, and the own mark and status stay. |
| Client.BackHome | frontend/src/utils/useGame.js:138-145 | Going home clears the game (join code null, not the initial ""), clears the mode and shows home, without a request. It emits `leave` exactly in double mode with a game id. |
| Client.OnSwitchGame | frontend/src/utils/useGame.js:149-154 | `switch_game` repoints the id and fetches it, changing nothing outside the game record and keeping status and own mark. An answered fetch leaves winner and win line null whatever it returned. A failed one changes only the id. |
| Client.OnPlayerLeft | frontend/src/utils/useGame.js:156-161 | `player_left` ends where going home does, but emits nothing. |
| Client.OnUnload | frontend/src/utils/useGame.js:163-171 | The unload hook changes the state exactly in double mode with a game id. It then emits `leave` for that game and nothing else. |
| Client.JoinRoomEffect | frontend/src/utils/useGame.js:173-186 | The room effect touches only the emits and the deferred join. Without a game id it sends nothing. On a connected socket it joins at once, and otherwise it defers the join to `connect`. |
| Client.OnConnect | frontend/src/utils/useGame.js:181-184 | `connect` fires a deferred join once and drops it, touching nothing else; without one nothing happens. |
| Client.Commit | frontend/src/utils/useGame.js:173-186 | A render that keeps the game id runs no room effect. One that moves to a new truthy id joins its room at once on a connected socket and defers the join to `connect` otherwise. The room effect never touches the game record or the requests. |
| ClientProperties.GameUpdateIdempotent | frontend/src/utils/useGame.js:44-53 | Applying the same `game_update` twice is the same as applying it once. |
| ClientProperties.FetchKeepsStatus | frontend/src/utils/useGame.js:44-61 | A fetch never writes the status. Only the push does, so the two differ whenever the reply's status differs. |
| ClientProperties.FetchAfterPush | frontend/src/utils/useGame.js:44-61 | Fetching the snapshot that was just pushed leaves the game record unchanged. |
| ClientProperties.JoinEmitsTwice | frontend/src/utils/useGame.js:90-102 | In a connected tab, joining by code emits `join` twice: once from the handler and once from the room effect its new id triggers. |
| ClientProperties.TypedCodeIsPosted | frontend/src/utils/useGame.js:90-92 | The code typed into the menu is the code the join request posts. |
| ClientProperties.UnloadSendsWhatHomeSends | frontend/src/utils/useGame.js:138-171 | Closing the tab emits exactly what going home emits, and leaves the game, mode and screen alone. |
| ClientProperties.HomeIsInert | frontend/src/utils/useGame.js:104-171 | Once home, the unload hook emits nothing, and moves and rematches do nothing. |
| ClientProperties.RematchMeetsSwitch | frontend/src/utils/useGame.js:121-154 | The rematch creator and the opponent it switches end on the same game id, board, turn and a null winner. |
| ClientProperties.RoomJoinDeferred | frontend/src/utils/useGame.js:176-186 | On a disconnected socket the join waits for `connect`, then fires there exactly once. |
| Grid.IndexRoundTrip | frontend/src/components/TicTacToeGrid.jsx:5-12 | A render index below 27 and a cell of the cube determine each other. |
| Grid.Positions | frontend/src/components/TicTacToeGrid.jsx:5-12 | The position list has 27 entries, and entry i is the cube cell whose render index is i. |
| Grid.RenderOrder | frontend/src/components/TicTacToeGrid.jsx:5-12 | The list holds every cell of the cube exactly once, with [x, y, z] at index 9x+3y+z. |
| Grid.CubeColor | frontend/src/components/TicTacToeGrid.jsx:14-26 | Green exactly for cells on the winning line, whatever the board holds. Otherwise red exactly for an X cell and blue exactly for an O cell. Light gray for any other or missing cell, a missing board included. |
| Grid.CellColor | frontend/src/components/TicTacToeGrid.jsx:20-25 | Off the win line, X is red, O is blue, and anything else, empty included, is light gray; never green. |
| Grid.Click | frontend/src/components/TicTacToeGrid.jsx:37-39 | A click while loading does nothing. Otherwise it is exactly `makeMove` with the clicked cell's coordinates: a request leaves exactly when the move guards pass, and it is the move of that cell. |
| Grid.ClickAtIndex | frontend/src/components/TicTacToeGrid.jsx:30-39 | Clicking the cube rendered at index i posts the move of the cell whose render index is i. |
| AppShell.Title | frontend/src/App.jsx:19-31 | Off the game screen the title is the bare name, and no title is shorter than it. |
| AppShell.TitleCases | frontend/src/App.jsx:19-31 | On the game screen, a winner is announced whatever the mode, X as Red and any other as Blue. Without a winner, the mode names the game. |
| AppShell.BareTitle | frontend/src/App.jsx:19-31 | The title is the bare name exactly off the game screen, or on it with neither a winner nor a known mode. |
| AppShell.TitleEndsWithName | frontend/src/App.jsx:19-31 | Every title ends with the application's name. |
| AppShell.ViewFor | frontend/src/App.jsx:33-60 | Each of the three screens selects its own view, and any other value renders nothing. |
| AppShell.LeavingShowsHome | frontend/src/App.jsx:19-41 | Going home, or being sent home by the opponent leaving, shows the home view under the bare title. |
| AppShell.EnteringShowsGame | frontend/src/App.jsx:19-58 | A created or joined multiplayer game shows the game view. With no winner carried over, the title is the multiplayer one. |
| AppShell.SingleStartShowsGame | frontend/src/App.jsx:19-58 | A single-player game that starts and is fetched with no winner shows the game view under the single-player title. |
| AppShell.WinnerColorMatchesTitle | frontend/src/App.jsx:22-23 | The title announces Red exactly when the winner's cubes are drawn red, and O's cubes are blue under a Blue title. A winner mark other than X or O is announced Blue but drawn light gray. |

## Left out

- The rules engine (`models.Game`: `make_move`, `robot_move`, win detection) is not part of this model. It is a parameter (`Engine`), and `Game()`'s initial status and rules state are a parameter (`Defaults`).
- The engine can only rewrite a game's rules state (`Rules`): players, kinds and status are out of its reach. `models.Game` could in principle rebind any attribute, such as `status` or `player_types`, and the invariants that rely on status and kinds (`KnownStatus`, `NeverEnded`) assume it does not.
- Backend.PlayerMove: a rejected move keeps whatever state the engine returned, because `make_move` may change the game before it reports failure.
- The uuid generator is an input (the UUID's 128-bit value). Randomness, and the chance that two games draw the same id or join code, are not modelled; a second game with the same code overwrites the table entry as in the source.
- Flask, CORS, eventlet and Socket.IO plumbing: room membership and delivery of broadcasts are recorded as effects, not executed. `emit(..., room=...)` inside a socket handler sends to the named room like `socketio.emit`; with `room=None` it goes to the sender's own room, its sid (`Backend.OnNewGame`).
- Request bodies: `request.json` that is not a JSON object is not modelled, and each field has one JSON type. `mode` and `code` are a string or absent/null (`Option<string>`), so an integer `code`, which the source would answer with a 404, cannot be written. The coordinates are an integer or absent/null (`Option<int>`). The socket payload ids `gameId`, `oldGameId` and `newGameId` are a string, `null` or missing (`Field<string>`), so a non-string id such as `join_room(5)` cannot be written. A missing socket payload key is the `Raised` reply, and a missing `player_types` key is a 500. The HTTP routes' optional fields fold a null value and a missing key into one `None`, as `dict.get` does.
- Sync.Sent: the client's `null` and `undefined` are both `None`, and both are delivered as JSON `null`. In the browser an `undefined` key is dropped from the JSON, so the server would see the key missing and raise, and the `!==` turn checks of `makeMove` also tell the two apart. With the modelled server every id and turn the client stores is a string or `null`, so the merge is not observable.
- Backend.Serialize: the status of `Game()` (`Defaults.status`) is assumed to be a string, so a snapshot's status is never null; a `Game()` whose status is `None` is not modelled. What a snapshot reveals is stated by `Backend.SnapshotShowsRulesAndStatus`.
- Text.DigitValue: a character that Python's `int(s, 16)` rejects with `ValueError` reads as 0; `new_game` only hashes `str(uuid4())`, which never holds one. For the same reason `Text.CodeShape`, about any string, is a helper, and the code's content is stated only for UUID ids (`Text.JoinCodeOfUuid`).
- The session-table lemmas assume each created game's id is named by no recorded session (`BackendInvariants.FreshFor`): UUID collisions are not modelled.
- `request.sid` on an HTTP request is an input (`Caller.sid`), normally absent.
- Axios, `API_BASE` and environment variables; the concurrency of async handlers. Each handler runs to completion with the server's answers given as inputs, and interleavings of two handlers are not modelled.
- `alert`, `console.error`, `window` listener registration and unmount cleanup. Writing `document.title` is modelled as the `Title` function.
- `useSocketEvent`, `HomeScreen`, `MultiplayerMenu`, `GameScreen` and `ClickableCube` are not part of this model. The `isLoading` a grid receives is a parameter of `Grid.Click`.
- The floating-point render position `(x - 1) * 1.2` and all 3D rendering.
- Socket.IO's client-side buffering of emits sent while disconnected: `outbox` records the order of emits, not their delivery.
- Re-renders other than the room effect's dependency on `gameId`; React's batching of state updates.

=== FILE: app.dfy ===
/** The shell of `App.jsx`: the document title chosen from the screen, the
    winner and the mode, and the screen that picks the view to render. */
module AppShell {
  import opened Wire
  import opened Client
  import Grid

  const BaseTitle := "ThicTacToe"
  const MenuScreen := "multiplayer-menu"

  /** The four titles beyond the bare name, each ending with it. */
  const RedWins := "Red wins! | " + BaseTitle
  const BlueWins := "Blue wins! | " + BaseTitle
  const MultiTitle := "Multiplayer | " + BaseTitle
  const SingleTitle := "Single Player | " + BaseTitle

  /** The title effect. Off the game screen it is the application's name; a
      truthy winner other than X is announced as Blue. */
  function Title(screen: string, winner: Option<string>, mode: Option<string>): (t: string)
    ensures screen != InGame ==> t == BaseTitle
    ensures |t| >= |BaseTitle|
  {
    if screen != InGame then BaseTitle
    else if Truthy(winner) then (if winner == Some("X") then RedWins else BlueWins)
    else if mode == Some("double") then MultiTitle
    else if mode == Some("single") then SingleTitle
    else BaseTitle
  }

  /** The title of the client's current state. */
  function TitleOf(c: Client): string
  {
    Title(c.screen, c.game.winner, c.mode)
  }

  /** What `App` renders. */
  datatype View = HomeView | MenuView | GameView | NoView

  /** Each of the three screens selects its own view, and any other value
      renders nothing. */
  function ViewFor(screen: string): (v: View)
    ensures v == HomeView <==> screen == Home
    ensures v == MenuView <==> screen == MenuScreen
    ensures v == GameView <==> screen == InGame
    ensures v == NoView <==> screen !in {Home, MenuScreen, InGame}
  {
    if screen == Home then HomeView
    else if screen == MenuScreen then MenuView
    else if screen == InGame then GameView
    else NoView
  }

  /** Off the game screen the title is the bare name; on it, a winner is
      announced whatever the mode, X as Red and anyone else as Blue; without
      one the mode names the game, and an unknown mode leaves the bare name. */
  lemma TitleCases(screen: string, winner: Option<string>, mode: Option<string>)
    ensures screen != InGame ==> Title(screen, winner, mode) == BaseTitle
    ensures screen == InGame && winner == Some("X") ==> Title(screen, winner, mode) == RedWins
    ensures screen == InGame && Truthy(winner) && winner != Some("X") ==>
      Title(screen, winner, mode) == BlueWins
    ensures screen == InGame && !Truthy(winner) && mode == Some("double") ==>
      Title(screen, winner, mode) == MultiTitle
    ensures screen == InGame && !Truthy(winner) && mode == Some("single") ==>
      Title(screen, winner, mode) == SingleTitle
  {
  }

  /** The title is the bare name exactly off the game screen, or on it with
      neither a winner nor a known mode. */
  lemma BareTitle(screen: string, winner: Option<string>, mode: Option<string>)
    ensures Title(screen, winner, mode) == BaseTitle <==>
      screen != InGame || (!Truthy(winner) && mode != Some("double") && mode != Some("single"))
  {
    var t := Title(screen, winner, mode);
    if screen == InGame && (Truthy(winner) || mode == Some("double") || mode == Some("single")) {
      assert |t| > |BaseTitle|;
    }
  }

  /** Every title ends with the application's name. */
  lemma TitleEndsWithName(screen: string, winner: Option<string>, mode: Option<string>)
    ensures
      var t := Title(screen, winner, mode);
      t[|t| - |BaseTitle|..] == BaseTitle
  {
    var t := Title(screen, winner, mode);
    if t == RedWins {
      assert t[|t| - |BaseTitle|..] == ("Red wins! | " + BaseTitle)[12..];
    } else if t == BlueWins {
      assert t[|t| - |BaseTitle|..] == ("Blue wins! | " + BaseTitle)[13..];
    } else if t == MultiTitle {
      assert t[|t| - |BaseTitle|..] == ("Multiplayer | " + BaseTitle)[14..];
    } else if t == SingleTitle {
      assert t[|t| - |BaseTitle|..] == ("Single Player | " + BaseTitle)[16..];
    }
  }

  /** Leaving a game, by `backHome` or because the opponent left, shows the
      home view under the bare title. */
  lemma LeavingShowsHome(c: Client)
    ensures ViewFor(BackHome(c).screen) == HomeView && TitleOf(BackHome(c)) == BaseTitle
    ensures ViewFor(OnPlayerLeft(c).screen) == HomeView && TitleOf(OnPlayerLeft(c)) == BaseTitle
  {
  }

  /** A game the player created or joined is shown on the game screen; with
      no winner carried over, its title is the multiplayer one. */
  lemma EnteringShowsGame(c: Client, data: Created)
    ensures ViewFor(CreateMultiplayer(c, Ok(data)).screen) == GameView
    ensures ViewFor(JoinMultiplayer(c, Ok(data)).screen) == GameView
    ensures !Truthy(c.game.winner) ==> TitleOf(CreateMultiplayer(c, Ok(data))) == MultiTitle
    ensures !Truthy(c.game.winner) ==> TitleOf(JoinMultiplayer(c, Ok(data))) == MultiTitle
  {
  }

  /** A single-player game that starts and answers its first fetch with no
      winner is shown on the game screen under the single-player title. */
  lemma SingleStartShowsGame(c: Client, data: Created, fetched: Snapshot)
    requires !Truthy(fetched.winner)
    ensures
      var r := StartSinglePlayer(c, Ok(data), Ok(fetched));
      ViewFor(r.screen) == GameView && TitleOf(r) == SingleTitle
  {
  }

  /** The colour the title names is the colour of the winner's cubes off a
      win line: Red for X, Blue for O. A winner mark other than X or O would
      be announced as Blue but drawn light gray. */
  lemma WinnerColorMatchesTitle(c: Client)
    requires c.screen == InGame && Truthy(c.game.winner)
    ensures Grid.CellColor(c.game.winner) == Grid.Red <==> TitleOf(c) == RedWins
    ensures c.game.winner == Some("O") ==>
      Grid.CellColor(c.game.winner) == Grid.Blue && TitleOf(c) == BlueWins
    ensures c.game.winner != Some("X") && c.game.winner != Some("O") ==>
      Grid.CellColor(c.game.winner) == Grid.LightGray && TitleOf(c) == BlueWins
  {
  }
}

=== FILE: backend.dfy ===
/** The Flask/Socket.IO server of `backend/app.py` as a sequential state machine
    over its three in-memory tables. Every HTTP route and socket handler is a
    pure transition `Registry -> Outcome`: the new tables, the reply, and the
    room operations and broadcasts it performed, in order. */
module Backend {
  import opened Wire
  import Text

  type GameId = string
  type Code = string

  /** `player_types` values and slot owner used for the single-player opponent. */
  const Human := "human"
  const Robot := "robot"

  datatype Role = X | O

  /** The part of a `models.Game` that belongs to the rules engine: what
      `serialize_game` reads besides the status. */
  datatype Rules = Rules(
    board: Option<Board>,
    currentPlayer: Option<string>,
    winner: Option<string>,
    winPositions: Option<WinLine>)

  /** One game record: the two player slots (a caller identity, `'robot'`, or
      `None`), the mark-to-kind table, the room status and the rules state. */
  datatype Game = Game(
    playerX: Option<string>,
    playerO: Option<string>,
    playerTypes: map<string, string>,
    status: string,
    rules: Rules)

  /** `games`, `short_code_mapping` and `player_sessions`. */
  datatype Registry = Registry(
    games: map<GameId, Game>,
    codes: map<Code, GameId>,
    sessions: map<string, (GameId, Role)>)

  /** The rules engine, which this model does not look into: `make_move` reports
      whether it accepted the move and leaves the rules state as it leaves it;
      `robot_move` plays the robot's reply. */
  datatype Engine = Engine(
    makeMove: (Rules, int, int, int) -> (bool, Rules),
    robotMove: Rules -> Rules)

  /** What a freshly constructed `Game()` holds before `new_game` fills it in
      (its player slots start empty). */
  datatype Defaults = Defaults(status: string, rules: Rules)

  /** Who is calling an HTTP route: `request.sid` when the request has one,
      and `request.remote_addr`. */
  datatype Caller = Caller(sid: Option<string>, remoteAddr: Option<string>)

  datatype Request =
    | NewGame(mode: Option<string>, caller: Caller, uuid: Text.Uuid)
    | JoinGame(code: Option<string>, caller: Caller)
    | Move(gameId: GameId, caller: Caller, x: Option<int>, y: Option<int>, z: Option<int>)
    | GetState(gameId: GameId)
    | SocketJoin(sid: string, room: Field<string>)
    | SocketLeave(sid: string, room: Field<string>)
    | SocketNewGame(sid: string, oldGameId: Field<string>, newGameId: Field<string>)
    | Disconnect(sid: string)

  datatype Body =
    | Failure(message: string)
    | Created(gameId: GameId, joinCode: Code)
    | Joined(gameId: GameId)
    | Moved
    | State(snapshot: Snapshot)
    | ServerError

  /** An HTTP response, a socket handler that returned, or one that raised
      (a payload key missing). */
  datatype Reply = Http(code: int, body: Body) | Handled | Raised

  datatype Event =
    | GameUpdate(snapshot: Snapshot)
    | PlayerLeft(status: string)
    | SwitchGame(gameId: Option<string>)

  /** `emit(..., room=...)`, `join_room` and `leave_room`. Every socket is
      also in a room named by its own sid; `join_room(None)` and
      `leave_room(None)` name the room `None`. */
  datatype Effect =
    | Broadcast(event: Event, room: GameId)
    | EnterRoom(sid: string, roomId: Option<GameId>)
    | ExitRoom(sid: string, roomId: Option<GameId>)

  datatype Outcome = Outcome(reg: Registry, reply: Reply, effects: seq<Effect>)

  const Empty := Registry(map[], map[], map[])

  function Serialize(g: Game): (r: Snapshot)
    ensures r.status == Some(g.status)
  {
    Snapshot(g.rules.board, g.rules.currentPlayer, g.rules.winner, Some(g.status), g.rules.winPositions)
  }

  /** Two games serialize alike exactly when their rules state and status
      agree: the snapshot shows neither the player slots nor the kinds. */
  lemma SnapshotShowsRulesAndStatus(g: Game, g': Game)
    ensures Serialize(g) == Serialize(g') <==> g.rules == g'.rules && g.status == g'.status
  {
  }

  function Unchanged(reg: Registry, code: int, message: string): Outcome
  {
    Outcome(reg, Http(code, Failure(message)), [])
  }

  /** Every join code that points at `id` removed from the table. */
  function DropCodes(codes: map<Code, GameId>, id: GameId): (r: map<Code, GameId>)
    ensures forall c :: c in r <==> c in codes && codes[c] != id
    ensures forall c :: c in r ==> r[c] == codes[c]
  {
    map c | c in codes && codes[c] != id :: codes[c]
  }

  /** The game and every join code for it removed. */
  function Discard(reg: Registry, id: GameId, sessions: map<string, (GameId, Role)>): Registry
  {
    Registry(reg.games - {id}, DropCodes(reg.codes, id), sessions)
  }

  predicate Empties(g: Game)
  {
    !Truthy(g.playerX) && !Truthy(g.playerO)
  }

  /** POST /api/game/new. */
  function CreateGame(reg: Registry, d: Defaults, mode: Option<string>, caller: Caller, uuid: Text.Uuid): (out: Outcome)
    ensures mode != Some("single") && mode != Some("double") ==>
      out == Outcome(reg, Http(404, Failure("Invalid game type.")), [])
    ensures mode == Some("single") || mode == Some("double") ==>
      var id := Text.UuidText(uuid);
      && out.reply == Http(200, Created(id, Text.Decimal(uuid % Text.CodeSpace)))
      && out.reg.games.Keys == reg.games.Keys + {id}
      && (forall k :: k in reg.games && k != id ==> out.reg.games[k] == reg.games[k])
      && out.reg.codes == reg.codes[Text.Decimal(uuid % Text.CodeSpace) := id]
      && out.reg.sessions == reg.sessions
      && out.effects == []
      && out.reg.games[id].playerX == Or(caller.sid, caller.remoteAddr)
      && out.reg.games[id].rules == d.rules
    ensures mode == Some("single") ==>
      var g := out.reg.games[Text.UuidText(uuid)];
      g.playerO == Some(Robot) && g.playerTypes == map["X" := Human, "O" := Robot] && g.status == d.status
    ensures mode == Some("double") ==>
      var g := out.reg.games[Text.UuidText(uuid)];
      g.playerO == None && g.playerTypes == map["X" := Human, "O" := Human] && g.status == "waiting"
  {
    if !Truthy(mode) || (mode.value != "single" && mode.value != "double") then
      Unchanged(reg, 404, "Invalid game type.")
    else
      var owner := Or(caller.sid, caller.remoteAddr);
      var g :=
        if mode.value == "single" then Game(owner, Some(Robot), map["X" := Human, "O" := Robot], d.status, d.rules)
        else Game(owner, None, map["X" := Human, "O" := Human], "waiting", d.rules);
      var id := Text.UuidText(uuid);
      var code := Text.CodeOf(id);
      Text.JoinCodeOfUuid(uuid);
      Outcome(reg.(games := reg.games[id := g], codes := reg.codes[code := id]), Http(200, Created(id, code)), [])
  }

  /** The join code names a live game: it is in the table, its id is
      non-empty (truthy) and the game still exists. */
  predicate Resolves(reg: Registry, code: Option<string>)
  {
    code.Some? && code.value in reg.codes && reg.codes[code.value] != "" && reg.codes[code.value] in reg.games
  }

  /** POST /api/game/join. */
  function JoinByCode(reg: Registry, code: Option<string>, caller: Caller): (out: Outcome)
    ensures !Resolves(reg, code) ==> out == Outcome(reg, Http(404, Failure("Invalid game code")), [])
    ensures Resolves(reg, code) ==>
      var id := reg.codes[code.value];
      var g := reg.games[id];
      && (g.playerO.Some? ==> out == Outcome(reg, Http(400, Failure("Game already full")), []))
      && (g.playerO.None? ==>
            && out.reply == Http(200, Joined(id))
            && out.reg == reg.(games := reg.games[id := g.(playerO := caller.remoteAddr, status := "active")])
            && out.effects == [Broadcast(GameUpdate(Serialize(out.reg.games[id])), id)])
  {
    var id := if code.Some? && code.value in reg.codes then Some(reg.codes[code.value]) else None;
    if !Truthy(id) || id.value !in reg.games then
      Unchanged(reg, 404, "Invalid game code")
    else
      var g := reg.games[id.value];
      if g.playerO.None? then
        var joined := g.(playerO := caller.remoteAddr, status := "active");
        Outcome(reg.(games := reg.games[id.value := joined]), Http(200, Joined(id.value)),
                [Broadcast(GameUpdate(Serialize(joined)), id.value)])
      else
        Unchanged(reg, 400, "Game already full")
  }

  /** `game.player_types[current]` raises: there is no current player, or
      the current player has no kind. */
  predicate Untyped(g: Game)
  {
    g.rules.currentPlayer.None? || g.rules.currentPlayer.value !in g.playerTypes
  }

  /** The 403 test: it is a human's turn and the caller holds neither slot. */
  predicate NotYourTurn(g: Game, caller: Caller)
    requires !Untyped(g)
  {
    var playerId := Or(caller.sid, caller.remoteAddr);
    g.playerTypes[g.rules.currentPlayer.value] == Human && playerId != g.playerX && playerId != g.playerO
  }

  /** After an accepted move, `game.player_types['O']` is read only when there
      is no winner yet, and raises when O has no kind. */
  predicate RobotLookupFails(g: Game)
  {
    !Truthy(g.rules.winner) && "O" !in g.playerTypes
  }

  /** The robot answers a move: no winner yet and O is not human. */
  predicate RobotReplies(g: Game)
  {
    !Truthy(g.rules.winner) && "O" in g.playerTypes && g.playerTypes["O"] != Human
  }

  /** POST /api/game/<id>/move: validation and dispatch to the rules engine. */
  function PlayerMove(reg: Registry, e: Engine, id: GameId, caller: Caller,
                      x: Option<int>, y: Option<int>, z: Option<int>): (out: Outcome)
    ensures id !in reg.games ==> out == Outcome(reg, Http(404, Failure("Game not found")), [])
    ensures id in reg.games ==> out.reg.codes == reg.codes && out.reg.sessions == reg.sessions
    ensures id in reg.games ==> out.reg.games.Keys == reg.games.Keys
    ensures id in reg.games ==> forall k :: k in reg.games && k != id ==> out.reg.games[k] == reg.games[k]
    ensures id in reg.games ==> out.reg.games[id] == reg.games[id].(rules := out.reg.games[id].rules)
    ensures id in reg.games && Untyped(reg.games[id]) ==> out == Outcome(reg, Http(500, ServerError), [])
    ensures id in reg.games && !Untyped(reg.games[id]) && NotYourTurn(reg.games[id], caller) ==>
      out == Outcome(reg, Http(403, Failure("Not your turn.")), [])
    ensures id in reg.games && !Untyped(reg.games[id]) && !NotYourTurn(reg.games[id], caller)
            && (x.None? || y.None? || z.None?) ==>
      out == Outcome(reg, Http(400, Failure("Missing coordinates")), [])
    ensures id in reg.games && !Untyped(reg.games[id]) && !NotYourTurn(reg.games[id], caller)
            && x.Some? && y.Some? && z.Some? ==>
      var (ok, moved) := e.makeMove(reg.games[id].rules, x.value, y.value, z.value);
      var g1 := reg.games[id].(rules := moved);
      && (!ok ==> out == Outcome(reg.(games := reg.games[id := g1]), Http(400, Failure("Invalid move")), []))
      && (ok && RobotLookupFails(g1) ==> out == Outcome(reg.(games := reg.games[id := g1]), Http(500, ServerError), []))
      && (ok && !RobotLookupFails(g1) ==>
            && out.reply == Http(200, Moved)
            && out.reg.games[id].rules == (if RobotReplies(g1) then e.robotMove(moved) else moved)
            && out.effects == [Broadcast(GameUpdate(Serialize(out.reg.games[id])), id)])
  {
    if id !in reg.games then
      Unchanged(reg, 404, "Game not found")
    else
      var g := reg.games[id];
      if Untyped(g) then
        Outcome(reg, Http(500, ServerError), [])
      else if NotYourTurn(g, caller) then
        Unchanged(reg, 403, "Not your turn.")
      else if x.None? || y.None? || z.None? then
        Unchanged(reg, 400, "Missing coordinates")
      else
        Play(reg, e, id, x.value, y.value, z.value)
  }

  /** The validated move handed to the rules engine, and the robot's reply. */
  function Play(reg: Registry, e: Engine, id: GameId, x: int, y: int, z: int): (out: Outcome)
    requires id in reg.games
    ensures id in out.reg.games && out.reg == reg.(games := reg.games[id := reg.games[id].(rules := out.reg.games[id].rules)])
  {
    var g := reg.games[id];
    var (ok, moved) := e.makeMove(g.rules, x, y, z);
    var g1 := g.(rules := moved);
    var reg1 := reg.(games := reg.games[id := g1]);
    if !ok then
      Outcome(reg1, Http(400, Failure("Invalid move")), [])
    else if RobotLookupFails(g1) then
      Outcome(reg1, Http(500, ServerError), [])
    else
      var g2 := if RobotReplies(g1) then g1.(rules := e.robotMove(moved)) else g1;
      Outcome(reg.(games := reg.games[id := g2]), Http(200, Moved), [Broadcast(GameUpdate(Serialize(g2)), id)])
  }

  /** GET /api/game/<id>/state. */
  function GameState(reg: Registry, id: GameId): (out: Outcome)
    ensures out.reg == reg && out.effects == []
    ensures id !in reg.games ==> out.reply == Http(404, Failure("Game not found"))
    ensures id in reg.games ==> out.reply == Http(200, State(Serialize(reg.games[id])))
  {
    if id !in reg.games then Unchanged(reg, 404, "Game not found")
    else Outcome(reg, Http(200, State(Serialize(reg.games[id]))), [])
  }

  /** Socket event `join`. */
  function OnJoin(reg: Registry, sid: string, gameId: Field<string>): (out: Outcome)
    ensures gameId.Absent? ==> out == Outcome(reg, Raised, [])
    ensures gameId.Null? ==> out == Outcome(reg, Handled, [EnterRoom(sid, None)])
    ensures gameId.Present? ==> out.reply == Handled && out.reg.codes == reg.codes && out.reg.games.Keys == reg.games.Keys
    ensures gameId.Present? && gameId.value !in reg.games ==>
      out.reg == reg && out.effects == [EnterRoom(sid, Some(gameId.value))]
    ensures gameId.Present? && gameId.value in reg.games ==>
      var id := gameId.value;
      var g, g' := reg.games[id], out.reg.games[id];
      && out.reg.games == reg.games[id := g']
      && g' == g.(status := g'.status)
      && (g'.status != g.status <==> g.status == "waiting" && Truthy(g.playerX) && Truthy(g.playerO))
      && (g'.status != g.status ==> g'.status == "active")
      && out.effects == [EnterRoom(sid, Some(id)), Broadcast(GameUpdate(Serialize(g')), id)]
      && (g.playerX == Some(sid) ==> out.reg.sessions == reg.sessions[sid := (id, X)])
      && (g.playerX != Some(sid) && g.playerO == Some(sid) ==> out.reg.sessions == reg.sessions[sid := (id, O)])
      && (g.playerX != Some(sid) && g.playerO != Some(sid) ==> out.reg.sessions == reg.sessions)
  {
    match gameId
    case Absent => Outcome(reg, Raised, [])
    case Null => Outcome(reg, Handled, [EnterRoom(sid, None)])
    case Present(id) =>
      if id !in reg.games then
        Outcome(reg, Handled, [EnterRoom(sid, Some(id))])
      else
        var g := reg.games[id];
        var sessions :=
          if g.playerX == Some(sid) || g.playerO == Some(sid)
          then reg.sessions[sid := (id, if g.playerX == Some(sid) then X else O)]
          else reg.sessions;
        var g' := if Truthy(g.playerX) && Truthy(g.playerO) && g.status == "waiting" then g.(status := "active") else g;
        Outcome(Registry(reg.games[id := g'], reg.codes, sessions), Handled,
                [EnterRoom(sid, Some(id)), Broadcast(GameUpdate(Serialize(g')), id)])
  }

  /** The game with the leaving socket's slot freed: X if it holds X,
      otherwise O if it holds O, otherwise neither. */
  function Vacate(g: Game, sid: string): (g1: Game)
    ensures g.playerX == Some(sid) ==> g1 == g.(playerX := None)
    ensures g.playerX != Some(sid) && g.playerO == Some(sid) ==> g1 == g.(playerO := None)
    ensures g.playerX != Some(sid) && g.playerO != Some(sid) ==> g1 == g
  {
    if g.playerX == Some(sid) then g.(playerX := None)
    else if g.playerO == Some(sid) then g.(playerO := None)
    else g
  }

  /** Socket event `leave`. */
  function OnLeave(reg: Registry, sid: string, gameId: Field<string>): (out: Outcome)
    ensures gameId.Absent? ==> out == Outcome(reg, Raised, [])
    ensures gameId.Null? ==> out == Outcome(reg, Handled, [ExitRoom(sid, None)])
    ensures gameId.Present? && gameId.value !in reg.games ==>
      out == Outcome(reg, Handled, [ExitRoom(sid, Some(gameId.value))])
    ensures gameId.Present? && gameId.value in reg.games ==>
      var id := gameId.value;
      var g1 := Vacate(reg.games[id], sid);
      && out.reply == Handled
      && out.reg.sessions == reg.sessions - {sid}
      && (id !in out.reg.games <==> Empties(g1))
      && (Empties(g1) ==>
            && out.reg.games == reg.games - {id}
            && out.reg.codes == DropCodes(reg.codes, id)
            && out.effects == [ExitRoom(sid, Some(id))])
      && (!Empties(g1) ==>
            && out.reg.games == reg.games[id := g1.(status := "waiting")]
            && out.reg.codes == reg.codes
            && out.effects == [Broadcast(PlayerLeft("waiting"), id), ExitRoom(sid, Some(id))])
  {
    match gameId
    case Absent => Outcome(reg, Raised, [])
    case Null => Outcome(reg, Handled, [ExitRoom(sid, None)])
    case Present(id) =>
      if id !in reg.games then
        Outcome(reg, Handled, [ExitRoom(sid, Some(id))])
      else
        var g1 := Vacate(reg.games[id], sid);
        var sessions := reg.sessions - {sid};
        if Empties(g1) then
          Outcome(Discard(reg, id, sessions), Handled, [ExitRoom(sid, Some(id))])
        else
          var status := if Truthy(g1.playerX) || Truthy(g1.playerO) then "waiting" else "ended";
          var g2 := g1.(status := status);
          Outcome(Registry(reg.games[id := g2], reg.codes, sessions), Handled,
                  [Broadcast(PlayerLeft(status), id), ExitRoom(sid, Some(id))])
  }

  /** Socket event `new_game`: relays the rematch to the old game's room. An
      `emit` whose room is `None` goes back to the sending socket's own room. */
  function OnNewGame(reg: Registry, sid: string, oldGameId: Field<string>, newGameId: Field<string>): (out: Outcome)
    ensures out.reg == reg
    ensures !oldGameId.Absent? && !newGameId.Absent? <==> out.reply == Handled
    ensures out.reply != Handled ==> out == Outcome(reg, Raised, [])
    ensures oldGameId.Present? && !newGameId.Absent? ==>
      out.effects == [Broadcast(SwitchGame(ValueOf(newGameId)), oldGameId.value)]
    ensures oldGameId.Null? && !newGameId.Absent? ==>
      out.effects == [Broadcast(SwitchGame(ValueOf(newGameId)), sid)]
  {
    if oldGameId.Absent? || newGameId.Absent? then Outcome(reg, Raised, [])
    else
      var room := if oldGameId.Present? then oldGameId.value else sid;
      Outcome(reg, Handled, [Broadcast(SwitchGame(ValueOf(newGameId)), room)])
  }

  /** Socket event `disconnect`. */
  function OnDisconnect(reg: Registry, sid: string): (out: Outcome)
    ensures out.reply == Handled
    ensures sid !in reg.sessions ==> out == Outcome(reg, Handled, [])
    ensures sid in reg.sessions && reg.sessions[sid].0 !in reg.games ==>
      out.reg == reg.(sessions := reg.sessions - {sid}) && out.effects == []
    ensures sid in reg.sessions && reg.sessions[sid].0 in reg.games ==>
      var (id, role) := reg.sessions[sid];
      var g := reg.games[id];
      var g1 := if role == X then g.(playerX := None) else g.(playerO := None);
      && out.reg.sessions == reg.sessions - {sid}
      && (id !in out.reg.games <==> Empties(g1))
      && (Empties(g1) ==>
            && out.reg.games == reg.games - {id}
            && out.reg.codes == DropCodes(reg.codes, id)
            && out.effects == [])
      && (!Empties(g1) ==>
            && out.reg.games == reg.games[id := g1.(status := "waiting")]
            && out.reg.codes == reg.codes
            && out.effects == [Broadcast(PlayerLeft("waiting"), id)])
  {
    if sid !in reg.sessions then
      Outcome(reg, Handled, [])
    else
      var (id, role) := reg.sessions[sid];
      var sessions := reg.sessions - {sid};
      if id !in reg.games then
        Outcome(reg.(sessions := sessions), Handled, [])
      else
        var g := reg.games[id];
        var g1 := if role == X then g.(playerX := None) else g.(playerO := None);
        if Empties(g1) then
          Outcome(Discard(reg, id, sessions), Handled, [])
        else
          var g2 := g1.(status := "waiting");
          Outcome(Registry(reg.games[id := g2], reg.codes, sessions), Handled, [Broadcast(PlayerLeft(g2.status), id)])
  }

  /** One request dispatched to its route or handler. Exactly the four HTTP
      routes answer with a status code; reading a game's state and relaying
      `new_game` change no table, and creating a game pushes nothing. */
  function Step(reg: Registry, d: Defaults, e: Engine, req: Request): (out: Outcome)
    ensures out.reply.Http? <==> req.NewGame? || req.JoinGame? || req.Move? || req.GetState?
    ensures req.GetState? || req.SocketNewGame? ==> out.reg == reg
    ensures req.NewGame? || req.GetState? ==> out.effects == []
  {
    match req
    case NewGame(mode, caller, uuid) => CreateGame(reg, d, mode, caller, uuid)
    case JoinGame(code, caller) => JoinByCode(reg, code, caller)
    case Move(id, caller, x, y, z) => PlayerMove(reg, e, id, caller, x, y, z)
    case GetState(id) => GameState(reg, id)
    case SocketJoin(sid, id) => OnJoin(reg, sid, id)
    case SocketLeave(sid, id) => OnLeave(reg, sid, id)
    case SocketNewGame(sid, oldId, newId) => OnNewGame(reg, sid, oldId, newId)
    case Disconnect(sid) => OnDisconnect(reg, sid)
  }

  /** A game appears only through creation and disappears only when a socket
      leaves or disconnects. */
  lemma GamesComeAndGo(reg: Registry, d: Defaults, e: Engine, req: Request, id: GameId)
    ensures id in Step(reg, d, e, req).reg.games && id !in reg.games ==> req.NewGame?
    ensures id in reg.games && id !in Step(reg, d, e, req).reg.games ==> req.SocketLeave? || req.Disconnect?
  {
  }

  /** The tables after a sequence of requests, starting from `reg`. */
  function Run(reg: Registry, d: Defaults, e: Engine, reqs: seq<Request>): Registry
    decreases |reqs|
  {
    if |reqs| == 0 then reg else Run(Step(reg, d, e, reqs[0]).reg, d, e, reqs[1..])
  }
}

=== FILE: backend_invariants.dfy ===
/** What the server's tables keep true across every route and handler of
    `backend/app.py`, and what that rules out. */
module BackendInvariants {
  import opened Wire
  import Text
  import opened Backend

  /** Both marks have a kind and X is human, as `new_game` sets them. */
  predicate Typed(g: Game)
  {
    "X" in g.playerTypes && "O" in g.playerTypes && g.playerTypes["X"] == Human
  }

  /** The statuses a game can carry: what `Game()` starts with, `'waiting'`, `'active'`. */
  predicate KnownStatus(g: Game, d: Defaults)
  {
    g.status == d.status || g.status == "waiting" || g.status == "active"
  }

  /** The registry invariant:
      - every join code names a live game, and is the code derived from that game's id
        (so a game has at most one code);
      - every game id is a 36-character UUID text;
      - every game is typed and carries a known status. */
  predicate Valid(reg: Registry, d: Defaults)
  {
    && (forall c :: c in reg.codes ==> reg.codes[c] in reg.games && c == Text.CodeOf(reg.codes[c]))
    && (forall id :: id in reg.games ==> |id| == 36 && Typed(reg.games[id]) && KnownStatus(reg.games[id], d))
  }

  /** Discarding a game with its codes keeps a registry valid. */
  lemma Dropped(reg: Registry, d: Defaults, id: GameId, sessions: map<string, (GameId, Role)>)
    requires Valid(reg, d)
    ensures Valid(Registry(reg.games - {id}, DropCodes(reg.codes, id), sessions), d)
  {
  }

  /** Replacing a game by a typed one with a known status keeps a registry valid. */
  lemma Replaced(reg: Registry, d: Defaults, id: GameId, g: Game, sessions: map<string, (GameId, Role)>)
    requires Valid(reg, d) && id in reg.games && Typed(g) && KnownStatus(g, d)
    ensures Valid(Registry(reg.games[id := g], reg.codes, sessions), d)
  {
  }

  lemma EmptyValid(d: Defaults)
    ensures Valid(Empty, d)
  {
  }

  /** Adding one game of a 36-character id, typed with a known status, and
      its derived code keeps the registry valid. */
  lemma Extended(reg: Registry, reg2: Registry, d: Defaults, id: GameId)
    requires Valid(reg, d)
    requires |id| == 36 && id in reg2.games && Typed(reg2.games[id]) && KnownStatus(reg2.games[id], d)
    requires reg2.games.Keys == reg.games.Keys + {id}
    requires forall k :: k in reg.games && k != id ==> reg2.games[k] == reg.games[k]
    requires reg2.codes == reg.codes[Text.CodeOf(id) := id]
    ensures Valid(reg2, d)
  {
    forall c | c in reg2.codes
      ensures reg2.codes[c] in reg2.games && c == Text.CodeOf(reg2.codes[c])
    {
      if c != Text.CodeOf(id) {
        assert reg2.codes[c] == reg.codes[c];
      }
    }
    forall k | k in reg2.games
      ensures |k| == 36 && Typed(reg2.games[k]) && KnownStatus(reg2.games[k], d)
    {
      if k != id {
        assert reg2.games[k] == reg.games[k];
      }
    }
  }

  lemma CreatePreserves(reg: Registry, d: Defaults, mode: Option<string>, caller: Caller, uuid: Text.Uuid)
    requires Valid(reg, d)
    ensures Valid(CreateGame(reg, d, mode, caller, uuid).reg, d)
  {
    if mode == Some("single") || mode == Some("double") {
      Text.JoinCodeOfUuid(uuid);
      Text.UuidLength(uuid);
      Extended(reg, CreateGame(reg, d, mode, caller, uuid).reg, d, Text.UuidText(uuid));
    }
  }

  lemma JoinPreserves(reg: Registry, d: Defaults, code: Option<string>, caller: Caller)
    requires Valid(reg, d)
    ensures Valid(JoinByCode(reg, code, caller).reg, d)
  {
    var out := JoinByCode(reg, code, caller);
    if Resolves(reg, code) && reg.games[reg.codes[code.value]].playerO.None? {
      var id := reg.codes[code.value];
      assert out.reg.games.Keys == reg.games.Keys;
      assert Typed(out.reg.games[id]) && KnownStatus(out.reg.games[id], d);
    }
  }

  lemma MovePreserves(reg: Registry, d: Defaults, e: Engine, id: GameId, caller: Caller,
                      x: Option<int>, y: Option<int>, z: Option<int>)
    requires Valid(reg, d)
    ensures Valid(PlayerMove(reg, e, id, caller, x, y, z).reg, d)
  {
    var out := PlayerMove(reg, e, id, caller, x, y, z);
    if id in reg.games {
      var g' := out.reg.games[id];
      assert out.reg.games == reg.games[id := g'];
      Replaced(reg, d, id, g', reg.sessions);
    }
  }

  lemma SocketJoinPreserves(reg: Registry, d: Defaults, sid: string, id: Field<string>)
    requires Valid(reg, d)
    ensures Valid(OnJoin(reg, sid, id).reg, d)
  {
  }

  lemma LeavePreserves(reg: Registry, d: Defaults, sid: string, id: Field<string>)
    requires Valid(reg, d)
    ensures Valid(OnLeave(reg, sid, id).reg, d)
  {
    if id.Present? && id.value in reg.games {
      var g1 := Vacate(reg.games[id.value], sid);
      if Empties(g1) {
        Dropped(reg, d, id.value, reg.sessions - {sid});
      } else {
        Replaced(reg, d, id.value, g1.(status := "waiting"), reg.sessions - {sid});
      }
    }
  }

  lemma DisconnectPreserves(reg: Registry, d: Defaults, sid: string)
    requires Valid(reg, d)
    ensures Valid(OnDisconnect(reg, sid).reg, d)
  {
    if sid in reg.sessions && reg.sessions[sid].0 in reg.games {
      var (id, role) := reg.sessions[sid];
      var g := reg.games[id];
      var g1 := if role == X then g.(playerX := None) else g.(playerO := None);
      if Empties(g1) {
        Dropped(reg, d, id, reg.sessions - {sid});
      } else {
        Replaced(reg, d, id, g1.(status := "waiting"), reg.sessions - {sid});
      }
    }
  }

  /** Every route and handler keeps the invariant. */
  lemma StepPreserves(reg: Registry, d: Defaults, e: Engine, req: Request)
    requires Valid(reg, d)
    ensures Valid(Step(reg, d, e, req).reg, d)
  {
    match req
    case NewGame(mode, caller, uuid) => CreatePreserves(reg, d, mode, caller, uuid);
    case JoinGame(code, caller) => JoinPreserves(reg, d, code, caller);
    case Move(id, caller, x, y, z) => MovePreserves(reg, d, e, id, caller, x, y, z);
    case GetState(_) =>
    case SocketJoin(sid, id) => SocketJoinPreserves(reg, d, sid, id);
    case SocketLeave(sid, id) => LeavePreserves(reg, d, sid, id);
    case SocketNewGame(_, _, _) =>
    case Disconnect(sid) => DisconnectPreserves(reg, d, sid);
  }

  /** Any sequence of requests from a valid registry (the empty one at start-up) keeps it valid. */
  lemma {:induction false} RunPreserves(reg: Registry, d: Defaults, e: Engine, reqs: seq<Request>)
    requires Valid(reg, d)
    ensures Valid(Run(reg, d, e, reqs), d)
    decreases |reqs|
  {
    if |reqs| > 0 {
      StepPreserves(reg, d, e, reqs[0]);
      RunPreserves(Step(reg, d, e, reqs[0]).reg, d, e, reqs[1..]);
    }
  }

  /** The `'ended'` status is never stored: `on_leave` returns before it when
      both slots are empty, and nothing else writes it. */
  lemma NeverEnded(d: Defaults, e: Engine, reqs: seq<Request>)
    requires d.status != "ended"
    ensures forall id :: id in Run(Empty, d, e, reqs).games ==> Run(Empty, d, e, reqs).games[id].status != "ended"
  {
    EmptyValid(d);
    RunPreserves(Empty, d, e, reqs);
  }

  /** In a valid registry a code in the table always resolves, so `join_game`
      answers 404 exactly for codes it does not know: the stale-code check never decides. */
  lemma KnownCodesResolve(reg: Registry, d: Defaults, code: Option<string>)
    requires Valid(reg, d)
    ensures Resolves(reg, code) <==> code.Some? && code.value in reg.codes
  {
    if code.Some? && code.value in reg.codes {
      assert |reg.codes[code.value]| == 36;
    }
  }

  /** A game has at most one join code. */
  lemma OneCodePerGame(reg: Registry, d: Defaults, c1: Code, c2: Code)
    requires Valid(reg, d)
    requires c1 in reg.codes && c2 in reg.codes && reg.codes[c1] == reg.codes[c2]
    ensures c1 == c2
  {
  }

  /** In a valid registry the move route never fails on the `player_types`
      lookups while the engine reports a mark as the current player. */
  lemma MoveLookupsSucceed(reg: Registry, d: Defaults, e: Engine, id: GameId, caller: Caller,
                           x: Option<int>, y: Option<int>, z: Option<int>)
    requires Valid(reg, d) && id in reg.games
    requires reg.games[id].rules.currentPlayer in {Some("X"), Some("O")}
    ensures PlayerMove(reg, e, id, caller, x, y, z).reply.body != ServerError
  {
  }

  /** Creating a double game and joining it by its code: the joiner's address
      fills O, the game becomes active and the room is sent the update. */
  lemma CreateThenJoin(reg: Registry, d: Defaults, host: Caller, guest: Caller, uuid: Text.Uuid)
    ensures
      var created := CreateGame(reg, d, Some("double"), host, uuid);
      var id := Text.UuidText(uuid);
      var joined := JoinByCode(created.reg, Some(Text.Decimal(uuid % Text.CodeSpace)), guest);
      && created.reply == Http(200, Created(id, Text.Decimal(uuid % Text.CodeSpace)))
      && created.reg.games[id].status == "waiting"
      && joined.reply == Http(200, Joined(id))
      && joined.reg.games[id].playerO == guest.remoteAddr
      && joined.reg.games[id].playerX == Or(host.sid, host.remoteAddr)
      && joined.reg.games[id].status == "active"
      && joined.effects == [Broadcast(GameUpdate(Serialize(joined.reg.games[id])), id)]
  {
    Text.UuidLength(uuid);
  }

  /** A single-player game's code cannot be joined: the robot holds O. */
  lemma SingleGameIsFull(reg: Registry, d: Defaults, host: Caller, guest: Caller, uuid: Text.Uuid)
    ensures
      var created := CreateGame(reg, d, Some("single"), host, uuid);
      var joined := JoinByCode(created.reg, Some(Text.Decimal(uuid % Text.CodeSpace)), guest);
      joined == Outcome(created.reg, Http(400, Failure("Game already full")), [])
  {
    Text.UuidLength(uuid);
  }

  /** A `leave` from a socket whose sid is in neither slot (the slots hold the
      HTTP callers' addresses) frees nothing: the game stays, with its players,
      and is marked `'waiting'`. */
  lemma LeaveByOutsiderKeepsGame(reg: Registry, sid: string, id: GameId)
    requires id in reg.games
    requires reg.games[id].playerX != Some(sid) && reg.games[id].playerO != Some(sid)
    requires Truthy(reg.games[id].playerX) || Truthy(reg.games[id].playerO)
    ensures
      var out := OnLeave(reg, sid, Present(id));
      && id in out.reg.games
      && out.reg.games[id] == reg.games[id].(status := "waiting")
      && out.reg.codes == reg.codes
  {
  }

  // ---------------------------------------------------------------------------
  // Sessions

  /** Socket `s` holds the slot its session records: X for role X; for role
      O it holds O but not X, since `on_join` records X whenever the socket
      holds X. */
  predicate Holds(g: Game, s: string, role: Role)
  {
    if role == X then g.playerX == Some(s) else g.playerO == Some(s) && g.playerX != Some(s)
  }

  /** Every session whose game is still live names a slot its socket holds. */
  predicate SessionsAgree(reg: Registry)
  {
    forall s :: s in reg.sessions && reg.sessions[s].0 in reg.games ==>
      Holds(reg.games[reg.sessions[s].0], s, reg.sessions[s].1)
  }

  /** A new game's id is named by no session: `uuid4` ids do not repeat. */
  predicate FreshFor(reg: Registry, req: Request)
  {
    req.NewGame? ==> forall s :: s in reg.sessions ==> reg.sessions[s].0 != Text.UuidText(req.uuid)
  }

  /** Every game created along the run gets an id no session names. */
  predicate AllFresh(reg: Registry, d: Defaults, e: Engine, reqs: seq<Request>)
    decreases |reqs|
  {
    |reqs| == 0 || (FreshFor(reg, reqs[0]) && AllFresh(Step(reg, d, e, reqs[0]).reg, d, e, reqs[1..]))
  }

  lemma CreateKeepsSessions(reg: Registry, d: Defaults, mode: Option<string>, caller: Caller, uuid: Text.Uuid)
    requires SessionsAgree(reg) && FreshFor(reg, NewGame(mode, caller, uuid))
    ensures SessionsAgree(CreateGame(reg, d, mode, caller, uuid).reg)
  {
    var out := CreateGame(reg, d, mode, caller, uuid);
    var id := Text.UuidText(uuid);
    forall s | s in out.reg.sessions && out.reg.sessions[s].0 in out.reg.games
      ensures Holds(out.reg.games[out.reg.sessions[s].0], s, out.reg.sessions[s].1)
    {
      if mode == Some("single") || mode == Some("double") {
        assert out.reg.sessions[s].0 != id;
      }
    }
  }

  lemma JoinKeepsSessions(reg: Registry, code: Option<string>, caller: Caller)
    requires SessionsAgree(reg)
    ensures SessionsAgree(JoinByCode(reg, code, caller).reg)
  {
  }

  lemma MoveKeepsSessions(reg: Registry, e: Engine, id: GameId, caller: Caller,
                          x: Option<int>, y: Option<int>, z: Option<int>)
    requires SessionsAgree(reg)
    ensures SessionsAgree(PlayerMove(reg, e, id, caller, x, y, z).reg)
  {
  }

  lemma SocketJoinKeepsSessions(reg: Registry, sid: string, id: Field<string>)
    requires SessionsAgree(reg)
    ensures SessionsAgree(OnJoin(reg, sid, id).reg)
  {
  }

  lemma LeaveKeepsSessions(reg: Registry, sid: string, id: Field<string>)
    requires SessionsAgree(reg)
    ensures SessionsAgree(OnLeave(reg, sid, id).reg)
  {
  }

  lemma DisconnectKeepsSessions(reg: Registry, sid: string)
    requires SessionsAgree(reg)
    ensures SessionsAgree(OnDisconnect(reg, sid).reg)
  {
  }

  /** Every route and handler keeps sessions and slots in agreement, given a fresh id for a new game. */
  lemma StepKeepsSessions(reg: Registry, d: Defaults, e: Engine, req: Request)
    requires SessionsAgree(reg) && FreshFor(reg, req)
    ensures SessionsAgree(Step(reg, d, e, req).reg)
  {
    match req
    case NewGame(mode, caller, uuid) => CreateKeepsSessions(reg, d, mode, caller, uuid);
    case JoinGame(code, caller) => JoinKeepsSessions(reg, code, caller);
    case Move(id, caller, x, y, z) => MoveKeepsSessions(reg, e, id, caller, x, y, z);
    case GetState(_) =>
    case SocketJoin(sid, id) => SocketJoinKeepsSessions(reg, sid, id);
    case SocketLeave(sid, id) => LeaveKeepsSessions(reg, sid, id);
    case SocketNewGame(_, _, _) =>
    case Disconnect(sid) => DisconnectKeepsSessions(reg, sid);
  }

  /** From start-up, along any run whose new ids are fresh, sessions and slots agree. */
  lemma {:induction false} RunKeepsSessions(reg: Registry, d: Defaults, e: Engine, reqs: seq<Request>)
    requires SessionsAgree(reg) && AllFresh(reg, d, e, reqs)
    ensures SessionsAgree(Run(reg, d, e, reqs))
    decreases |reqs|
  {
    if |reqs| > 0 {
      StepKeepsSessions(reg, d, e, reqs[0]);
      RunKeepsSessions(Step(reg, d, e, reqs[0]).reg, d, e, reqs[1..]);
    }
  }

  /** With sessions in agreement, a disconnect does to the tables what a
      `leave` of the recorded room does: it frees exactly the socket's own
      slot, discards the game when that empties it, and sends the same
      `player_left`; only the room exit is missing. */
  lemma DisconnectIsLeave(reg: Registry, sid: string)
    requires SessionsAgree(reg) && sid in reg.sessions && reg.sessions[sid].0 in reg.games
    ensures
      var id := reg.sessions[sid].0;
      && OnDisconnect(reg, sid).reg == OnLeave(reg, sid, Present(id)).reg
      && OnLeave(reg, sid, Present(id)).effects == OnDisconnect(reg, sid).effects + [ExitRoom(sid, Some(id))]
  {
    var (id, role) := reg.sessions[sid];
    assert Holds(reg.games[id], sid, role);
  }

  /** A double game's creator cannot close it by leaving before anyone
      joins. `new_game` is an HTTP route, so X holds the caller's address;
      the creator's socket, whose id is not that address, is in neither slot
      of the game, so its `leave` frees nothing. The game stays, still
      waiting, and its code still lets a guest in. With no address at all X
      would be empty and the game would be discarded. */
  lemma CreatorLeaveKeepsGame(reg: Registry, d: Defaults, host: Caller, sock: string, guest: Caller, uuid: Text.Uuid)
    requires host.sid == None && host.remoteAddr != Some(sock)
    ensures
      var created := CreateGame(reg, d, Some("double"), host, uuid);
      var id := Text.UuidText(uuid);
      var left := OnLeave(created.reg, sock, Present(id));
      && (id in left.reg.games <==> Truthy(host.remoteAddr))
      && (Truthy(host.remoteAddr) ==>
            && left.reg.games[id] == created.reg.games[id]
            && left.reg.games[id].status == "waiting"
            && JoinByCode(left.reg, Some(Text.Decimal(uuid % Text.CodeSpace)), guest).reply == Http(200, Joined(id)))
  {
    Text.UuidLength(uuid);
  }

}

=== FILE: client.dfy ===
/** The browser side of a game session, `frontend/src/utils/useGame.js` with the
    `mode`/`screen` state its parent owns. Each handler is the hook's setters,
    requests and socket emits applied one after the other, each a function of
    the client state; requests and emits are logged in `calls` and `outbox`.
    Server replies are inputs: `Failed` stands for a request whose promise
    rejected. */
module Client {
  import opened Wire

  /** The `gameState` object. */
  datatype GameState = GameState(
    board: Option<Board>,
    currentPlayer: Option<string>,
    winner: Option<string>,
    joinCode: Option<string>,
    gameId: Option<string>,
    gameStatus: Option<string>,
    mySymbol: Option<string>,
    winPositions: Option<WinLine>)

  /** Socket emits: `join`, `leave` and `new_game`. */
  datatype Emit =
    | JoinRoom(gameId: Option<string>)
    | LeaveRoom(gameId: Option<string>)
    | Rematch(oldGameId: Option<string>, newGameId: Option<string>)

  /** HTTP requests, with the body or path value they carry. */
  datatype Call =
    | PostNewGame(mode: Option<string>)
    | PostJoin(code: Option<string>)
    | PostMove(gameId: Option<string>, x: int, y: int, z: int)
    | GetState(gameId: Option<string>)

  /** Everything the hook and its parent hold, plus what has been sent:
      `pendingJoin` is the game id of a `joinRoom` waiting on the socket's
      next `connect`. */
  datatype Client = Client(
    game: GameState,
    mode: Option<string>,
    screen: string,
    loading: bool,
    pendingJoin: Option<string>,
    outbox: seq<Emit>,
    calls: seq<Call>)

  /** A server reply: the promise rejected, or resolved with `res.data`. */
  datatype Response<T> = Failed | Ok(data: T)

  /** `res.data` of POST /game/new and of POST /game/join (no `joinCode` there). */
  datatype Created = Created(gameId: Option<string>, joinCode: Option<string>)

  const InGame := "in-game"
  const Home := "home"

  /** What `resetGameState` writes; note `joinCode` is null here but `""` initially. */
  const Cleared := GameState(None, None, None, None, None, None, None, None)

  /** The state on first render. */
  const Initial := Client(Cleared.(joinCode := Some("")), None, Home, false, None, [], [])

  // ---------------------------------------------------------------------------
  // Setters, requests and emits

  function SetBoard(c: Client, b: Option<Board>): Client { c.(game := c.game.(board := b)) }
  function SetCurrentPlayer(c: Client, p: Option<string>): Client { c.(game := c.game.(currentPlayer := p)) }
  function SetWinner(c: Client, w: Option<string>): Client { c.(game := c.game.(winner := w)) }
  function SetJoinCode(c: Client, code: Option<string>): Client { c.(game := c.game.(joinCode := code)) }
  function SetGameId(c: Client, id: Option<string>): Client { c.(game := c.game.(gameId := id)) }
  function SetGameStatus(c: Client, s: Option<string>): Client { c.(game := c.game.(gameStatus := s)) }
  function SetMySymbol(c: Client, sym: Option<string>): Client { c.(game := c.game.(mySymbol := sym)) }
  function SetWinPositions(c: Client, wp: Option<WinLine>): Client { c.(game := c.game.(winPositions := wp)) }
  function SetMode(c: Client, m: Option<string>): Client { c.(mode := m) }
  function SetScreen(c: Client, s: string): Client { c.(screen := s) }
  function SetLoading(c: Client, b: bool): Client { c.(loading := b) }

  /** `resetGameState`. */
  function ResetGameState(c: Client): Client { c.(game := Cleared) }

  /** An HTTP request leaves the browser. */
  function Send(c: Client, call: Call): Client { c.(calls := c.calls + [call]) }

  /** `socket.emit`. */
  function SocketEmit(c: Client, e: Emit): Client { c.(outbox := c.outbox + [e]) }

  // ---------------------------------------------------------------------------
  // Handlers

  /** The `game_update` socket handler (`updateGameFromSocket`): the game
      record shows the pushed snapshot; the join code, the game id and the own
      mark stay, and nothing else in the client changes. */
  function OnGameUpdate(c: Client, data: Snapshot): (r: Client)
    ensures r == c.(game := r.game)
    ensures && r.game.board == data.board && r.game.currentPlayer == data.currentPlayer
            && r.game.winner == data.winner && r.game.gameStatus == data.status
            && r.game.winPositions == data.winPositions
    ensures r.game.joinCode == c.game.joinCode && r.game.gameId == c.game.gameId && r.game.mySymbol == c.game.mySymbol
  {
    c.(game := c.game.(board := data.board, currentPlayer := data.currentPlayer, winner := data.winner,
                       gameStatus := data.status, winPositions := data.winPositions))
  }

  /** `fetchGameState(id)`: a failed fetch only sends its GET; one that
      answers writes board, turn, winner and win line from the reply and
      nothing else. */
  function FetchGameState(c: Client, id: Option<string>, reply: Response<Snapshot>): (r: Client)
    ensures reply.Failed? ==> r == c.(calls := c.calls + [GetState(id)])
    ensures reply.Ok? ==>
      var d := reply.data;
      r == c.(game := c.game.(board := d.board, currentPlayer := d.currentPlayer, winner := d.winner,
                              winPositions := d.winPositions),
              calls := c.calls + [GetState(id)])
  {
    var c := Send(c, GetState(id));
    if reply.Failed? then c
    else
      var c := SetBoard(c, reply.data.board);
      var c := SetCurrentPlayer(c, reply.data.currentPlayer);
      var c := SetWinner(c, reply.data.winner);
      SetWinPositions(c, reply.data.winPositions)
  }

  /** `startSinglePlayerGame`: it never writes the status and emits nothing.
      With both replies the client is on the game screen in single mode as X,
      showing the fetched board; if the fetch fails only the game id has
      moved, and if the creation fails only the request is logged. */
  function StartSinglePlayer(c: Client, created: Response<Created>, fetched: Response<Snapshot>): (r: Client)
    ensures r.game.gameStatus == c.game.gameStatus && r.outbox == c.outbox
    ensures created.Failed? ==> r == c.(calls := c.calls + [PostNewGame(Some("single"))])
    ensures created.Ok? && fetched.Failed? ==>
      r == c.(game := c.game.(gameId := created.data.gameId),
              calls := c.calls + [PostNewGame(Some("single")), GetState(created.data.gameId)])
    ensures created.Ok? && fetched.Ok? ==>
      var d := fetched.data;
      r == c.(game := c.game.(gameId := created.data.gameId, board := d.board, currentPlayer := d.currentPlayer,
                              winner := d.winner, winPositions := d.winPositions, mySymbol := Some("X")),
              mode := Some("single"), screen := InGame,
              calls := c.calls + [PostNewGame(Some("single")), GetState(created.data.gameId)])
  {
    var c := Send(c, PostNewGame(Some("single")));
    if created.Failed? then c
    else
      var c := SetGameId(c, created.data.gameId);
      var c := FetchGameState(c, created.data.gameId, fetched);
      if fetched.Failed? then c
      else
        var c := SetMode(c, Some("single"));
        var c := SetMySymbol(c, Some("X"));
        SetScreen(c, InGame)
  }

  /** `createMultiplayerGame`: the returned id and join code, own mark X,
      status waiting, double mode and the game screen, with no emit (the
      room-join effect sends the `join`); a failed creation only logs the
      request. */
  function CreateMultiplayer(c: Client, created: Response<Created>): (r: Client)
    ensures r.calls == c.calls + [PostNewGame(Some("double"))]
    ensures r.outbox == c.outbox
    ensures created.Failed? ==> r == c.(calls := r.calls)
    ensures created.Ok? ==>
      r == c.(game := c.game.(gameId := created.data.gameId, joinCode := created.data.joinCode,
                              mySymbol := Some("X"), gameStatus := Some("waiting")),
              mode := Some("double"), screen := InGame, calls := r.calls)
  {
    var c := Send(c, PostNewGame(Some("double")));
    if created.Failed? then c
    else
      var c := SetGameId(c, created.data.gameId);
      var c := SetJoinCode(c, created.data.joinCode);
      var c := SetMode(c, Some("double"));
      var c := SetGameStatus(c, Some("waiting"));
      var c := SetMySymbol(c, Some("X"));
      SetScreen(c, InGame)
  }

  /** `joinMultiplayerGame`, posting the code typed into the menu. A
      successful join: own mark O, status active, double mode, the game
      screen, and one `join` emit carrying the returned id; a failed one only
      logs the request. */
  function JoinMultiplayer(c: Client, joined: Response<Created>): (r: Client)
    ensures r.calls == c.calls + [PostJoin(c.game.joinCode)]
    ensures joined.Failed? ==> r == c.(calls := r.calls)
    ensures joined.Ok? ==>
      r == c.(game := c.game.(gameId := joined.data.gameId, mySymbol := Some("O"), gameStatus := Some("active")),
              mode := Some("double"), screen := InGame, calls := r.calls,
              outbox := c.outbox + [JoinRoom(joined.data.gameId)])
  {
    var c := Send(c, PostJoin(c.game.joinCode));
    if joined.Failed? then c
    else
      var c := SetGameId(c, joined.data.gameId);
      var c := SetMode(c, Some("double"));
      var c := SetGameStatus(c, Some("active"));
      var c := SetMySymbol(c, Some("O"));
      var c := SetScreen(c, InGame);
      SocketEmit(c, JoinRoom(joined.data.gameId))
  }

  /** `makeMove`'s early returns: the move goes ahead only with a game, no
      winner, and, in single mode, X to move, in double mode, our own mark. */
  predicate MoveAllowed(c: Client)
    ensures MoveAllowed(c) ==> Truthy(c.game.gameId) && !Truthy(c.game.winner)
    ensures c.mode == Some("single") ==>
      (MoveAllowed(c) <==> Truthy(c.game.gameId) && !Truthy(c.game.winner) && c.game.currentPlayer == Some("X"))
    ensures c.mode == Some("double") ==>
      (MoveAllowed(c) <==> Truthy(c.game.gameId) && !Truthy(c.game.winner) && c.game.currentPlayer == c.game.mySymbol)
    ensures c.mode != Some("single") && c.mode != Some("double") ==>
      (MoveAllowed(c) <==> Truthy(c.game.gameId) && !Truthy(c.game.winner))
  {
    && Truthy(c.game.gameId)
    && !Truthy(c.game.winner)
    && !(c.mode == Some("single") && c.game.currentPlayer != Some("X"))
    && !(c.mode == Some("double") && c.game.currentPlayer != c.game.mySymbol)
  }

  /** `makeMove(x, y, z)`; `posted` says whether the move POST resolved, and
      the fetch is sent only then. Stopped by its guards it changes nothing,
      `loading` included; past them it posts the move, refetches only after a
      successful post, always ends with `loading` false, emits nothing, and
      keeps the status, the game, the own mark, the mode and the screen. */
  function MakeMove(c: Client, x: int, y: int, z: int, posted: bool, fetched: Response<Snapshot>): (r: Client)
    ensures !MoveAllowed(c) ==> r == c
    ensures r.calls == c.calls <==> !MoveAllowed(c)
    ensures MoveAllowed(c) ==>
      && r.calls == c.calls + [PostMove(c.game.gameId, x, y, z)] + (if posted then [GetState(c.game.gameId)] else [])
      && !r.loading && r.outbox == c.outbox && r.pendingJoin == c.pendingJoin
      && r.game.gameStatus == c.game.gameStatus && r.game.gameId == c.game.gameId
      && r.game.mySymbol == c.game.mySymbol && r.game.joinCode == c.game.joinCode
      && r.mode == c.mode && r.screen == c.screen
    ensures MoveAllowed(c) && (!posted || fetched.Failed?) ==> r.game == c.game
    ensures MoveAllowed(c) && posted && fetched.Ok? ==> r.game == FetchGameState(c, c.game.gameId, fetched).game
  {
    if !MoveAllowed(c) then c
    else
      var id := c.game.gameId;
      var c := SetLoading(c, true);
      var c := Send(c, PostMove(id, x, y, z));
      var c := if posted then FetchGameState(c, id, fetched) else c;
      SetLoading(c, false)
  }

  /** `newGame`: a rematch under the same mode. It does nothing without a game
      id; a failed creation only logs the request. Once created, it emits
      `new_game` with the old and the new id, switches to the new id and
      fetches it; the winner is cleared only once that fetch answers. */
  function NewGame(c: Client, created: Response<Created>, fetched: Response<Snapshot>): (r: Client)
    ensures !Truthy(c.game.gameId) ==> r == c
    ensures Truthy(c.game.gameId) && created.Failed? ==> r == c.(calls := c.calls + [PostNewGame(c.mode)])
    ensures Truthy(c.game.gameId) && created.Ok? ==>
      && r.outbox == c.outbox + [Rematch(c.game.gameId, created.data.gameId)]
      && r.calls == c.calls + [PostNewGame(c.mode), GetState(created.data.gameId)]
      && r == c.(game := r.game, outbox := r.outbox, calls := r.calls)
    ensures Truthy(c.game.gameId) && created.Ok? && fetched.Failed? ==>
      r.game == c.game.(gameId := created.data.gameId)
    ensures Truthy(c.game.gameId) && created.Ok? && fetched.Ok? ==>
      var d := fetched.data;
      r.game == c.game.(gameId := created.data.gameId, board := d.board, currentPlayer := d.currentPlayer,
                        winner := None, winPositions := d.winPositions)
  {
    if !Truthy(c.game.gameId) then c
    else
      var oldId := c.game.gameId;
      var c := Send(c, PostNewGame(c.mode));
      if created.Failed? then c
      else
        var newId := created.data.gameId;
        var c := SocketEmit(c, Rematch(oldId, newId));
        var c := SetGameId(c, newId);
        var c := FetchGameState(c, newId, fetched);
        if fetched.Failed? then c else SetWinner(c, None)
  }

  /** The `leave` emit of `backHome` and of the unload hook. */
  function LeaveIfDouble(c: Client): Client
  {
    if c.mode == Some("double") && Truthy(c.game.gameId) then SocketEmit(c, LeaveRoom(c.game.gameId)) else c
  }

  /** `resetGameState(); setMode(null); setScreen("home")`. */
  function ToHome(c: Client): Client
  {
    SetScreen(SetMode(ResetGameState(c), None), Home)
  }

  /** `backHome`: the cleared game (join code null, not the initial `""`),
      mode null, the home screen, no request; `leave` is emitted exactly in
      double mode with a game id. */
  function BackHome(c: Client): (r: Client)
    ensures r.game == Cleared && r.mode == None && r.screen == Home
    ensures r.game != Initial.game
    ensures r.calls == c.calls && r.loading == c.loading && r.pendingJoin == c.pendingJoin
    ensures c.mode == Some("double") && Truthy(c.game.gameId) ==> r.outbox == c.outbox + [LeaveRoom(c.game.gameId)]
    ensures !(c.mode == Some("double") && Truthy(c.game.gameId)) ==> r.outbox == c.outbox
  {
    ToHome(LeaveIfDouble(c))
  }

  /** The `switch_game` socket handler: it repoints the game id and fetches
      it, keeping the status, the own mark and the emits. Once the fetch
      answers, winner and win line are null whatever it returned; if it fails
      they are left as they were. */
  function OnSwitchGame(c: Client, id: Option<string>, fetched: Response<Snapshot>): (r: Client)
    ensures r == c.(game := r.game, calls := c.calls + [GetState(id)])
    ensures fetched.Failed? ==> r.game == c.game.(gameId := id)
    ensures fetched.Ok? ==>
      r.game == c.game.(gameId := id, board := fetched.data.board, currentPlayer := fetched.data.currentPlayer,
                        winner := None, winPositions := None)
  {
    var c := SetGameId(c, id);
    var c := FetchGameState(c, id, fetched);
    if fetched.Failed? then c
    else
      var c := SetWinner(c, None);
      SetWinPositions(c, None)
  }

  /** The `player_left` socket handler (the alert aside): it ends where
      `backHome` does, without emitting anything. */
  function OnPlayerLeft(c: Client): (r: Client)
    ensures r == BackHome(c).(outbox := c.outbox)
  {
    ToHome(c)
  }

  /** The `beforeunload` hook: it changes the client exactly in double mode
      with a game id, and then only by emitting `leave` for that game. */
  function OnUnload(c: Client): (r: Client)
    ensures (c.mode == Some("double") && Truthy(c.game.gameId)) <==> r != c
    ensures r != c ==> r == c.(outbox := c.outbox + [LeaveRoom(c.game.gameId)])
  {
    LeaveIfDouble(c)
  }

  /** The room-join effect, which React runs when `gameId` changes: the
      previous run's deferred join is dropped, then the client joins now if
      the socket is connected or waits for `connect`. It touches only the
      emits and the deferred join. */
  function JoinRoomEffect(c: Client, connected: bool): (r: Client)
    ensures r == c.(outbox := r.outbox, pendingJoin := r.pendingJoin)
    ensures !Truthy(c.game.gameId) ==> r.outbox == c.outbox && r.pendingJoin == None
    ensures Truthy(c.game.gameId) && connected ==>
      r.outbox == c.outbox + [JoinRoom(c.game.gameId)] && r.pendingJoin == None
    ensures Truthy(c.game.gameId) && !connected ==> r.outbox == c.outbox && r.pendingJoin == c.game.gameId
  {
    var c := c.(pendingJoin := None);
    if !Truthy(c.game.gameId) then c
    else if connected then SocketEmit(c, JoinRoom(c.game.gameId))
    else c.(pendingJoin := c.game.gameId)
  }

  /** The socket's `connect` event: a deferred `joinRoom` fires and is
      dropped, so it fires once; without one nothing happens. */
  function OnConnect(c: Client): (r: Client)
    ensures r == c.(outbox := r.outbox, pendingJoin := None)
    ensures c.pendingJoin.None? ==> r == c
    ensures c.pendingJoin.Some? ==> r.outbox == c.outbox + [JoinRoom(c.pendingJoin)]
  {
    if c.pendingJoin.None? then c else SocketEmit(c, JoinRoom(c.pendingJoin)).(pendingJoin := None)
  }

  /** The effects after a render: the room-join effect runs only if `gameId`
      changed, and never touches the game record or the requests. */
  function Commit(before: Client, after: Client, connected: bool): (r: Client)
    ensures r.game == after.game && r.calls == after.calls
    ensures after.game.gameId == before.game.gameId ==> r == after
    ensures after.game.gameId != before.game.gameId && !Truthy(after.game.gameId) ==> r.outbox == after.outbox
    ensures after.game.gameId != before.game.gameId && Truthy(after.game.gameId) && connected ==>
      r.outbox == after.outbox + [JoinRoom(after.game.gameId)] && r.pendingJoin == None
    ensures after.game.gameId != before.game.gameId && Truthy(after.game.gameId) && !connected ==>
      r.outbox == after.outbox && r.pendingJoin == after.game.gameId
  {
    if after.game.gameId == before.game.gameId then after else JoinRoomEffect(after, connected)
  }

  /** `setJoinCode`, bound to the menu's code field. */
  function TypeJoinCode(c: Client, code: Option<string>): Client
  {
    SetJoinCode(c, code)
  }
}

=== FILE: client_properties.dfy ===
/** What the handlers of `useGame.js` promise about the client state and about
    the requests and emits they send. */
module ClientProperties {
  import opened Wire
  import opened Client

  // ---------------------------------------------------------------------------
  // Server pushes and fetches

  /** Applying the same push twice is applying it once. */
  lemma GameUpdateIdempotent(c: Client, data: Snapshot)
    ensures OnGameUpdate(OnGameUpdate(c, data), data) == OnGameUpdate(c, data)
  {
  }

  /** Only the push writes the status: a fetch keeps it, whatever it returns. */
  lemma FetchKeepsStatus(c: Client, id: Option<string>, reply: Response<Snapshot>)
    ensures FetchGameState(c, id, reply).game.gameStatus == c.game.gameStatus
    ensures reply.Ok? && reply.data.status != c.game.gameStatus ==>
      OnGameUpdate(c, reply.data).game.gameStatus != FetchGameState(c, id, reply).game.gameStatus
  {
  }

  /** Fetching the snapshot that was just pushed changes nothing in the game
      record: the state endpoint and `game_update` agree on board, turn,
      winner and win line. */
  lemma FetchAfterPush(c: Client, id: Option<string>, data: Snapshot)
    ensures FetchGameState(OnGameUpdate(c, data), id, Ok(data)).game == OnGameUpdate(c, data).game
  {
  }

  // ---------------------------------------------------------------------------
  // Starting and joining games

  /** Joining by code in a connected tab sends `join` twice: once from the
      handler and once from the room-join effect its new game id triggers. */
  lemma JoinEmitsTwice(c: Client, gameId: string, code: Option<string>)
    requires gameId != "" && c.game.gameId != Some(gameId)
    ensures
      var joined := JoinMultiplayer(c, Ok(Created(Some(gameId), code)));
      Commit(c, joined, true).outbox == c.outbox + [JoinRoom(Some(gameId)), JoinRoom(Some(gameId))]
  {
  }

  /** The code typed into the menu is the code the join posts. */
  lemma TypedCodeIsPosted(c: Client, code: Option<string>, joined: Response<Created>)
    ensures
      var r := JoinMultiplayer(TypeJoinCode(c, code), joined);
      r.calls == c.calls + [PostJoin(code)]
  {
  }

  // ---------------------------------------------------------------------------
  // Leaving

  /** Once home, there is nothing left to leave, move in or rematch: the
      unload hook emits nothing, and moves and `newGame` are no-ops. */
  lemma HomeIsInert(c: Client, x: int, y: int, z: int, posted: bool, created: Response<Created>, fetched: Response<Snapshot>)
    ensures OnUnload(BackHome(c)) == BackHome(c)
    ensures MakeMove(BackHome(c), x, y, z, posted, fetched) == BackHome(c)
    ensures NewGame(OnPlayerLeft(c), created, fetched) == OnPlayerLeft(c)
  {
  }

  /** Closing the tab sends what going home sends: the unload hook's emits
      are exactly `backHome`'s, while the state is left alone. */
  lemma UnloadSendsWhatHomeSends(c: Client)
    ensures OnUnload(c).outbox == BackHome(c).outbox
    ensures OnUnload(c).game == c.game && OnUnload(c).mode == c.mode && OnUnload(c).screen == c.screen
  {
  }

  // ---------------------------------------------------------------------------
  // Rematch and switching

  /** The room the rematch creator moves to is the one `switch_game` brings
      the opponent to: after the creator's `new_game` names `newId`, the
      opponent's switch with the same fetch shows the same game. */
  lemma RematchMeetsSwitch(c: Client, other: Client, newId: string, fetched: Snapshot)
    requires Truthy(c.game.gameId)
    ensures
      var mine := NewGame(c, Ok(Created(Some(newId), None)), Ok(fetched));
      var theirs := OnSwitchGame(other, Some(newId), Ok(fetched));
      && mine.game.gameId == theirs.game.gameId == Some(newId)
      && mine.game.board == theirs.game.board && mine.game.currentPlayer == theirs.game.currentPlayer
      && mine.game.winner == theirs.game.winner == None
  {
  }

  // ---------------------------------------------------------------------------
  // The room-join effect

  /** On a socket that is not connected the join waits for `connect`, fires
      there, and fires only once. */
  lemma RoomJoinDeferred(c: Client)
    requires Truthy(c.game.gameId)
    ensures
      var r := JoinRoomEffect(c, false);
      && r.outbox == c.outbox && r.pendingJoin == c.game.gameId
      && OnConnect(r).outbox == c.outbox + [JoinRoom(c.game.gameId)]
      && OnConnect(OnConnect(r)) == OnConnect(r)
  {
  }
}

=== FILE: grid.dfy ===
/** The 3x3x3 board view of `TicTacToeGrid.jsx`: the 27 cell positions in
    render order, the colour of each cube, and the click guard. */
module Grid {
  import opened Wire
  import opened Client

  /** A cell `[x, y, z]`. */
  datatype Pos = Pos(x: int, y: int, z: int)

  /** The colours a cube can take. */
  datatype Color = Green | Red | Blue | LightGray

  predicate InCube(p: Pos)
  {
    0 <= p.x < 3 && 0 <= p.y < 3 && 0 <= p.z < 3
  }

  /** Where a cell sits in the render order: x outermost, z innermost. */
  function IndexOf(p: Pos): int
  {
    9 * p.x + 3 * p.y + p.z
  }

  /** The cell rendered at index `i`. */
  function PosAt(i: nat): Pos
  {
    Pos(i / 9, i / 3 % 3, i % 3)
  }

  /** Quotient and remainder by 9 and by 3 are unique. */
  lemma DivMod9(q: int, r: int)
    requires 0 <= r < 9
    ensures (9 * q + r) / 9 == q && (9 * q + r) % 9 == r
  {
  }

  lemma DivMod3(q: int, r: int)
    requires 0 <= r < 3
    ensures (3 * q + r) / 3 == q && (3 * q + r) % 3 == r
  {
  }

  /** A cell of the cube is found again at its own render index. */
  lemma PosAtIndexOf(p: Pos)
    requires InCube(p)
    ensures 0 <= IndexOf(p) < 27 && PosAt(IndexOf(p)) == p
  {
    var n := IndexOf(p);
    DivMod9(p.x, 3 * p.y + p.z);
    assert n == 3 * (3 * p.x + p.y) + p.z;
    DivMod3(3 * p.x + p.y, p.z);
    DivMod3(p.x, p.y);
  }

  /** The render index and the cell determine each other. */
  lemma IndexRoundTrip(i: nat, p: Pos)
    ensures i < 27 ==> InCube(PosAt(i)) && IndexOf(PosAt(i)) == i
    ensures InCube(p) ==> 0 <= IndexOf(p) < 27 && PosAt(IndexOf(p)) == p
  {
    if i < 27 {
      var x, r := i / 9, i % 9;
      var y, z := r / 3, r % 3;
      assert i == 9 * x + 3 * y + z;
      var q := Pos(x, y, z);
      PosAtIndexOf(q);
    }
    if InCube(p) {
      PosAtIndexOf(p);
    }
  }

  /** The `positions` array: three nested loops over x, y and z. Entry `i`
      is the cell whose render index is `i`. */
  method Positions() returns (ps: seq<Pos>)
    ensures |ps| == 27
    ensures forall i :: 0 <= i < |ps| ==> InCube(ps[i]) && IndexOf(ps[i]) == i
  {
    ps := [];
    var x := 0;
    while x < 3
      invariant 0 <= x <= 3
      invariant |ps| == 9 * x
      invariant forall i :: 0 <= i < |ps| ==> InCube(ps[i]) && IndexOf(ps[i]) == i
    {
      var y := 0;
      while y < 3
        invariant 0 <= y <= 3
        invariant |ps| == 9 * x + 3 * y
        invariant forall i :: 0 <= i < |ps| ==> InCube(ps[i]) && IndexOf(ps[i]) == i
      {
        var z := 0;
        while z < 3
          invariant 0 <= z <= 3
          invariant |ps| == 9 * x + 3 * y + z
          invariant forall i :: 0 <= i < |ps| ==> InCube(ps[i]) && IndexOf(ps[i]) == i
        {
          ps := ps + [Pos(x, y, z)];
          z := z + 1;
        }
        y := y + 1;
      }
      x := x + 1;
    }
  }

  /** In render order the entries are the 27 cells of the cube, each once:
      entry `i` is `PosAt(i)`, and the entry at index `9x+3y+z` is `[x, y, z]`. */
  lemma RenderOrder(ps: seq<Pos>)
    requires |ps| == 27 && forall i :: 0 <= i < |ps| ==> InCube(ps[i]) && IndexOf(ps[i]) == i
    ensures forall i :: 0 <= i < |ps| ==> ps[i] == PosAt(i)
    ensures forall i, j :: 0 <= i < j < |ps| ==> ps[i] != ps[j]
    ensures forall p :: InCube(p) ==> ps[IndexOf(p)] == p
  {
    forall i | 0 <= i < |ps|
      ensures ps[i] == PosAt(i)
    {
      IndexRoundTrip(0, ps[i]);
    }
    forall p | InCube(p)
      ensures ps[IndexOf(p)] == p
    {
      IndexRoundTrip(0, p);
      IndexRoundTrip(0, ps[IndexOf(p)]);
    }
  }

  /** `board?.[x]?.[y]?.[z]`: a missing board, row or cell reads as nothing. */
  function Lookup(board: Option<Board>, x: int, y: int, z: int): Option<string>
  {
    if board.None? || !(0 <= x < |board.value|) then None
    else
      var plane := board.value[x];
      if !(0 <= y < |plane|) then None
      else
        var row := plane[y];
        if !(0 <= z < |row|) then None else row[z]
  }

  /** One `win_positions` entry names the cell; a short entry names none. */
  predicate Hits(entry: seq<int>, x: int, y: int, z: int)
  {
    |entry| >= 3 && entry[0] == x && entry[1] == y && entry[2] == z
  }

  /** The cell is on the winning line. */
  ghost predicate OnWinLine(winPositions: Option<WinLine>, x: int, y: int, z: int)
  {
    winPositions.Some? && exists j :: 0 <= j < |winPositions.value| && Hits(winPositions.value[j], x, y, z)
  }

  /** `getCubeColor(x, y, z)`: green on the winning line whatever the board
      holds; otherwise red for X, blue for O, light gray for anything else,
      a missing board included. */
  method CubeColor(board: Option<Board>, winPositions: Option<WinLine>, x: int, y: int, z: int) returns (color: Color)
    ensures color == Green <==> OnWinLine(winPositions, x, y, z)
    ensures color == Red <==> !OnWinLine(winPositions, x, y, z) && Lookup(board, x, y, z) == Some("X")
    ensures color == Blue <==> !OnWinLine(winPositions, x, y, z) && Lookup(board, x, y, z) == Some("O")
    ensures color == LightGray <==>
      !OnWinLine(winPositions, x, y, z) && Lookup(board, x, y, z) != Some("X") && Lookup(board, x, y, z) != Some("O")
  {
    if winPositions.Some? {
      var line := winPositions.value;
      var i := 0;
      while i < |line|
        invariant 0 <= i <= |line|
        invariant forall j :: 0 <= j < i ==> !Hits(line[j], x, y, z)
      {
        if Hits(line[i], x, y, z) {
          return Green;
        }
        i := i + 1;
      }
    }
    return CellColor(Lookup(board, x, y, z));
  }

  /** The colour of a cube off the win line: red for X, blue for O, light gray
      for anything else, an empty cell included. */
  function CellColor(cell: Option<string>): (color: Color)
    ensures color == Red <==> cell == Some("X")
    ensures color == Blue <==> cell == Some("O")
    ensures color == LightGray <==> cell != Some("X") && cell != Some("O")
    ensures color != Green
  {
    if cell == Some("X") then Red else if cell == Some("O") then Blue else LightGray
  }

  /** A cube's `onClick`: `makeMove` with the cube's own coordinates, unless
      the game is loading. A click while loading does nothing; otherwise a
      request leaves exactly when the move guards pass, and it is the move of
      the clicked cell. */
  function Click(c: Client, isLoading: bool, p: Pos, posted: bool, fetched: Response<Snapshot>): (r: Client)
    ensures isLoading ==> r == c
    ensures !isLoading ==> r == MakeMove(c, p.x, p.y, p.z, posted, fetched)
    ensures r.calls != c.calls <==> !isLoading && MoveAllowed(c)
    ensures !isLoading && MoveAllowed(c) ==>
      |r.calls| > |c.calls| && r.calls[|c.calls|] == PostMove(c.game.gameId, p.x, p.y, p.z)
  {
    if isLoading then c else MakeMove(c, p.x, p.y, p.z, posted, fetched)
  }

  /** Clicking the cube rendered at index `i` posts the move of cell `PosAt(i)`. */
  lemma ClickAtIndex(c: Client, i: nat, posted: bool, fetched: Response<Snapshot>)
    requires i < 27 && MoveAllowed(c)
    ensures
      var r := Click(c, false, PosAt(i), posted, fetched);
      var q := r.calls[|c.calls|];
      q.PostMove? && InCube(Pos(q.x, q.y, q.z)) && IndexOf(Pos(q.x, q.y, q.z)) == i
  {
    IndexRoundTrip(i, PosAt(i));
  }
}

=== FILE: sync.dfy ===
/** How the server's pushes and its state endpoint line up, and what a client
    that receives both ends up showing. */
module Sync {
  import opened Wire
  import opened Backend
  import Client

  /** A `game_update` from any route or handler carries exactly the snapshot
      the state endpoint would return for that room right after it. */
  lemma {:induction false} BroadcastMatchesState(reg: Registry, d: Defaults, e: Engine, req: Request)
    ensures
      var out := Step(reg, d, e, req);
      forall i :: 0 <= i < |out.effects| && out.effects[i].Broadcast? && out.effects[i].event.GameUpdate? ==>
        && out.effects[i].room in out.reg.games
        && GameState(out.reg, out.effects[i].room).reply == Http(200, State(out.effects[i].event.snapshot))
  {
    match req
    case JoinGame(code, caller) =>
    case Move(id, caller, x, y, z) =>
    case SocketJoin(sid, id) =>
    case _ =>
  }

  /** A client that applied a room's push and then fetched the room's state
      is left with the same game record as one that only applied the push. */
  lemma PushThenFetch(reg: Registry, d: Defaults, e: Engine, req: Request, i: nat, c: Client.Client)
    requires i < |Step(reg, d, e, req).effects|
    requires Step(reg, d, e, req).effects[i].Broadcast? && Step(reg, d, e, req).effects[i].event.GameUpdate?
    ensures
      var out := Step(reg, d, e, req);
      var push := out.effects[i];
      var pushed := Client.OnGameUpdate(c, push.event.snapshot);
      var reply := GameState(out.reg, push.room).reply;
      && reply.Http? && reply.body.State?
      && Client.FetchGameState(pushed, Some(push.room), Client.Ok(reply.body.snapshot)).game == pushed.game
  {
    BroadcastMatchesState(reg, d, e, req);
  }

  /** Joining a room twice from the same socket is joining it once: the
      session, the status and the codes are as after the first `join`. */
  lemma SocketJoinIdempotent(reg: Registry, sid: string, id: Field<string>)
    ensures OnJoin(OnJoin(reg, sid, id).reg, sid, id).reg == OnJoin(reg, sid, id).reg
  {
  }

  // ---------------------------------------------------------------------------
  // Client emits as the server receives them

  /** A client-side id as it arrives in the event's JSON payload: a string, or
      `null`. */
  function Sent(id: Option<string>): (f: Field<string>)
    ensures !f.Absent?
    ensures ValueOf(f) == id
  {
    if id.Some? then Present(id.value) else Null
  }

  /** The socket request an emit of the client on socket `sid` becomes. */
  function Deliver(sid: string, m: Client.Emit): (req: Request)
    ensures m.JoinRoom? ==> req == SocketJoin(sid, Sent(m.gameId))
    ensures m.LeaveRoom? ==> req == SocketLeave(sid, Sent(m.gameId))
    ensures m.Rematch? ==> req == SocketNewGame(sid, Sent(m.oldGameId), Sent(m.newGameId))
    ensures req.SocketJoin? || req.SocketLeave? || req.SocketNewGame?
  {
    match m
    case JoinRoom(id) => SocketJoin(sid, Sent(id))
    case LeaveRoom(id) => SocketLeave(sid, Sent(id))
    case Rematch(oldId, newId) => SocketNewGame(sid, Sent(oldId), Sent(newId))
  }

  /** The rematch relay: the `new_game` the creator emits after a successful
      rematch reaches the server, which tells the old room to switch to the
      new id; an opponent acting on that `switch_game` ends on the creator's
      new game, whatever the server's state and whatever the fetches answer. */
  lemma RematchRelay(reg: Registry, d: Defaults, e: Engine, sid: string, c: Client.Client, newId: string,
                     code: Option<string>, fetched: Client.Response<Snapshot>,
                     other: Client.Client, otherFetched: Client.Response<Snapshot>)
    requires Truthy(c.game.gameId)
    ensures
      var mine := Client.NewGame(c, Client.Ok(Client.Created(Some(newId), code)), fetched);
      && |mine.outbox| == |c.outbox| + 1
      && var relay := Step(reg, d, e, Deliver(sid, mine.outbox[|c.outbox|]));
      && relay.reg == reg && relay.reply == Handled
      && relay.effects == [Broadcast(SwitchGame(Some(newId)), c.game.gameId.value)]
      && Client.OnSwitchGame(other, relay.effects[0].event.gameId, otherFetched).game.gameId == mine.game.gameId
  {
  }

  /** A rematch whose creator has no game id does not reach the server: with
      nothing emitted, no room is told to switch. */
  lemma RematchNeedsGame(c: Client.Client, created: Client.Response<Client.Created>, fetched: Client.Response<Snapshot>)
    requires !Truthy(c.game.gameId)
    ensures Client.NewGame(c, created, fetched).outbox == c.outbox
  {
  }

  /** Going home from a double game the player created leaves the game on
      the server. `new_game` is an HTTP route, so the creator's slot holds the
      HTTP caller's address, never a socket id; the `leave` the client emits,
      delivered on its socket, therefore frees no slot. The game stays with
      its creator in X and its code, and the room is told the opponent left. */
  lemma CreatorGoesHomeGameStays(reg: Registry, d: Defaults, e: Engine, host: Caller, uuid: Text.Uuid,
                                 sid: string, c: Client.Client)
    requires host.sid == None && Truthy(host.remoteAddr) && host.remoteAddr != Some(sid)
    requires c.mode == Some("double") && c.game.gameId == Some(Text.UuidText(uuid))
    ensures
      var created := CreateGame(reg, d, Some("double"), host, uuid);
      var id := Text.UuidText(uuid);
      var home := Client.BackHome(c);
      && |home.outbox| == |c.outbox| + 1
      && var out := Step(created.reg, d, e, Deliver(sid, home.outbox[|c.outbox|]));
      && id in out.reg.games
      && out.reg.games[id] == created.reg.games[id]
      && out.reg.games[id].playerX == host.remoteAddr
      && out.reg.codes == created.reg.codes
      && out.effects == [Broadcast(PlayerLeft("waiting"), id), ExitRoom(sid, Some(id))]
  {
    Text.UuidLength(uuid);
  }
}

=== FILE: text.dfy ===
/** The text conversions behind a game's identifiers: the canonical text of a
    version-4 UUID (`str(uuid.uuid4())`), Python's `int(s, 16)` on that text with
    its hyphens removed, and `str(n)` for the join code. */
module Text {

  /** 2^128: a UUID is a 128-bit number. */
  const UuidSpace: nat := 0x1_0000_0000_0000_0000_0000_0000_0000_0000

  /** The integer value of a UUID, as `uuid.UUID.int` holds it. */
  type Uuid = u: nat | u < UuidSpace

  /** A join code is the UUID's value modulo 10^6. */
  const CodeSpace: nat := 1000000

  function Pow(b: nat, k: nat): (r: nat)
    ensures b > 0 ==> r > 0
  {
    if k == 0 then 1 else b * Pow(b, k - 1)
  }

  /** Lower-case digit for a value below 16, as Python prints hex and decimal. */
  function DigitChar(d: nat): char
    requires d < 16
  {
    if d < 10 then ('0' as int + d) as char else ('a' as int + d - 10) as char
  }

  /** Value of one digit character under `int(s, base)`, either case for the
      letters. A character `int` would reject reads as 0: the ids this is
      applied to never hold one. */
  function DigitValue(ch: char): nat
  {
    if '0' <= ch <= '9' then ch as nat - '0' as nat
    else if 'a' <= ch <= 'f' then ch as nat - 'a' as nat + 10
    else if 'A' <= ch <= 'F' then ch as nat - 'A' as nat + 10
    else 0
  }

  predicate IsDecimalDigit(ch: char)
  {
    '0' <= ch <= '9'
  }

  predicate IsHexDigit(ch: char)
  {
    IsDecimalDigit(ch) || 'a' <= ch <= 'f'
  }

  /** `int(s, base)` on a string of digits, most significant first. */
  function ValueIn(base: nat, s: string): nat
  {
    if |s| == 0 then 0 else ValueIn(base, s[..|s| - 1]) * base + DigitValue(s[|s| - 1])
  }

  /** `str(n)` for a non-negative Python int: no sign, no leading zeros. */
  function Decimal(n: nat): string
  {
    if n < 10 then [DigitChar(n)] else Decimal(n / 10) + [DigitChar(n % 10)]
  }

  /** The low `width` hex digits of `u`, zero-padded, most significant first. */
  function HexFixed(u: nat, width: nat): (h: string)
    ensures |h| == width
  {
    if width == 0 then [] else HexFixed(u / 16, width - 1) + [DigitChar(u % 16)]
  }

  /** `str(uuid)`: 32 lower-case hex digits grouped 8-4-4-4-12 by hyphens. */
  function UuidText(u: Uuid): string
  {
    var h := HexFixed(u, 32);
    h[..8] + "-" + h[8..12] + "-" + h[12..16] + "-" + h[16..20] + "-" + h[20..]
  }

  /** `s.replace('-', '')`. */
  function StripHyphens(s: string): string
  {
    if |s| == 0 then [] else (if s[0] == '-' then [] else [s[0]]) + StripHyphens(s[1..])
  }

  /** The join code `new_game` derives from a game id:
      `str(int(game_id.replace('-', ''), 16) % 10 ** 6)`. */
  function CodeOf(gameId: string): string
  {
    Decimal(ValueIn(16, StripHyphens(gameId)) % CodeSpace)
  }

  /** A key of the join-code table: one to six decimal digits. */
  predicate IsCode(s: string)
  {
    1 <= |s| <= 6 && forall i :: 0 <= i < |s| ==> IsDecimalDigit(s[i])
  }

  // ---------------------------------------------------------------------------
  // Arithmetic helpers

  lemma {:induction false} PowAdd(b: nat, j: nat, k: nat)
    ensures Pow(b, j + k) == Pow(b, j) * Pow(b, k)
  {
    if k > 0 {
      PowAdd(b, j, k - 1);
      var x, y := Pow(b, j), Pow(b, k - 1);
      calc {
        Pow(b, j + k);
        b * Pow(b, j + k - 1);
        b * (x * y);
        x * (b * y);
        Pow(b, j) * Pow(b, k);
      }
    }
  }

  /** 16^32 is the number of UUIDs. */
  lemma HexSpace()
    ensures Pow(16, 32) == UuidSpace
  {
    assert Pow(16, 2) == 256;
    PowAdd(16, 2, 2);
    PowAdd(16, 4, 4);
    PowAdd(16, 8, 8);
    PowAdd(16, 16, 16);
  }

  // ---------------------------------------------------------------------------
  // Round trips

  lemma DigitRoundTrip(d: nat)
    requires d < 16
    ensures DigitValue(DigitChar(d)) == d
    ensures IsHexDigit(DigitChar(d))
    ensures d < 10 ==> IsDecimalDigit(DigitChar(d))
  {
  }

  /** Parsing the last digit off a string: `int(s + c, base)`. */
  lemma ValueInSnoc(base: nat, s: string, c: char)
    ensures ValueIn(base, s + [c]) == ValueIn(base, s) * base + DigitValue(c)
  {
    assert (s + [c])[..|s + [c]| - 1] == s;
  }

  /** `int(str(n)) == n`. */
  lemma {:induction false} DecimalRoundTrip(n: nat)
    ensures ValueIn(10, Decimal(n)) == n
  {
    DigitRoundTrip(n % 10);
    if n < 10 {
      assert Decimal(n) == [] + [DigitChar(n)];
      ValueInSnoc(10, [], DigitChar(n));
    } else {
      DecimalRoundTrip(n / 10);
      ValueInSnoc(10, Decimal(n / 10), DigitChar(n % 10));
    }
  }

  /** `str(n)` has no more digits than `k` when `n < 10^k`, and only digits. */
  lemma {:induction false} DecimalShape(n: nat, k: nat)
    requires k >= 1 && n < Pow(10, k)
    ensures 1 <= |Decimal(n)| <= k
    ensures forall i :: 0 <= i < |Decimal(n)| ==> IsDecimalDigit(Decimal(n)[i])
  {
    DigitRoundTrip(n % 10);
    if n >= 10 {
      assert Pow(10, 1) == 10;
      assert k >= 2;
      assert n / 10 < Pow(10, k - 1);
      DecimalShape(n / 10, k - 1);
    }
  }

  /** Two numbers with the same `str` are equal. */
  lemma DecimalInjective(a: nat, b: nat)
    requires Decimal(a) == Decimal(b)
    ensures a == b
  {
    DecimalRoundTrip(a);
    DecimalRoundTrip(b);
  }

  /** `int(h, 16)` of the zero-padded hex text of a value that fits recovers the value. */
  lemma {:induction false} HexRoundTrip(u: nat, width: nat)
    requires u < Pow(16, width)
    ensures ValueIn(16, HexFixed(u, width)) == u
    ensures forall i :: 0 <= i < width ==> IsHexDigit(HexFixed(u, width)[i])
  {
    if width > 0 {
      assert u / 16 < Pow(16, width - 1);
      HexRoundTrip(u / 16, width - 1);
      DigitRoundTrip(u % 16);
      ValueInSnoc(16, HexFixed(u / 16, width - 1), DigitChar(u % 16));
    }
  }

  lemma {:induction false} StripAppend(a: string, b: string)
    ensures StripHyphens(a + b) == StripHyphens(a) + StripHyphens(b)
  {
    if |a| > 0 {
      assert (a + b)[1..] == a[1..] + b;
      StripAppend(a[1..], b);
    } else {
      assert a + b == b;
    }
  }

  lemma {:induction false} StripNoHyphen(s: string)
    requires forall i :: 0 <= i < |s| ==> s[i] != '-'
    ensures StripHyphens(s) == s
  {
    if |s| > 0 {
      StripNoHyphen(s[1..]);
      assert s == [s[0]] + s[1..];
    }
  }

  /** `str(uuid)` is 36 characters long. */
  lemma UuidLength(u: Uuid)
    ensures |UuidText(u)| == 36
  {
  }

  /** Removing the hyphens of `a-b`, when `a` has none, keeps `a` whole. */
  lemma StripGroup(a: string, b: string)
    requires forall i :: 0 <= i < |a| ==> a[i] != '-'
    ensures StripHyphens(a + "-" + b) == a + StripHyphens(b)
  {
    var hy := "-";
    assert StripHyphens(hy) == [] by {
      assert hy[1..] == [];
    }
    StripAppend(a + hy, b);
    StripAppend(a, hy);
    StripNoHyphen(a);
    assert StripHyphens(a + hy) == a;
  }

  /** Removing the hyphens from 32 hyphen-free characters grouped 8-4-4-4-12
      gives the characters back. */
  lemma StripGroups(h: string)
    requires |h| == 32 && forall i :: 0 <= i < |h| ==> h[i] != '-'
    ensures StripHyphens(h[..8] + "-" + h[8..12] + "-" + h[12..16] + "-" + h[16..20] + "-" + h[20..]) == h
  {
    var p1, p2, p3, p4, p5 := h[..8], h[8..12], h[12..16], h[16..20], h[20..];
    var t4 := p4 + "-" + p5;
    var t3 := p3 + "-" + t4;
    var t2 := p2 + "-" + t3;
    var t1 := p1 + "-" + t2;
    assert p1 + "-" + p2 + "-" + p3 + "-" + p4 + "-" + p5 == t1;
    StripNoHyphen(p5);
    StripGroup(p4, p5);
    StripGroup(p3, t4);
    StripGroup(p2, t3);
    StripGroup(p1, t2);
    assert StripHyphens(t1) == p1 + (p2 + (p3 + (p4 + p5)));
    assert p1 + (p2 + (p3 + (p4 + p5))) == h;
  }

  /** `int(str(uuid).replace('-', ''), 16) == uuid.int`. */
  lemma UuidRoundTrip(u: Uuid)
    ensures ValueIn(16, StripHyphens(UuidText(u))) == u
  {
    var h := HexFixed(u, 32);
    HexSpace();
    HexRoundTrip(u, 32);
    forall i | 0 <= i < |h|
      ensures h[i] != '-'
    {
      assert IsHexDigit(h[i]);
    }
    StripGroups(h);
  }

  /** The code computation always yields a one- to six-digit string. For the
      ids `new_game` actually hashes see `JoinCodeOfUuid`. */
  lemma CodeShape(id: string)
    ensures IsCode(CodeOf(id))
  {
    assert Pow(10, 6) == CodeSpace;
    DecimalShape(ValueIn(16, StripHyphens(id)) % CodeSpace, 6);
  }

  /** The join code of a fresh game is `str(uuid.int % 10^6)`: a one- to
      six-digit string whose value is below one million, and equal codes
      mean equal residues. */
  lemma JoinCodeOfUuid(u: Uuid)
    ensures CodeOf(UuidText(u)) == Decimal(u % CodeSpace)
    ensures IsCode(CodeOf(UuidText(u)))
    ensures ValueIn(10, CodeOf(UuidText(u))) == u % CodeSpace < CodeSpace
  {
    UuidRoundTrip(u);
    DecimalRoundTrip(u % CodeSpace);
    CodeShape(UuidText(u));
  }
}

=== FILE: wire.dfy ===
/** Values shared by the server registry and the browser client: the nullable
    strings both languages pass around, and the JSON records that travel between
    them (the serialized game and its board). */
module Wire {

  /** A JSON value that may be `null`/`None` (or an absent key, which both
      Python's `dict.get` and JavaScript's property access read as nothing). */
  datatype Option<+T> = None | Some(value: T)

  /** A key of a JSON payload read with `data['key']`: absent (the read
      raises), present as `null`, or present with a value. */
  datatype Field<+T> = Absent | Null | Present(value: T)

  /** What a nullable read of the key gives: absent and `null` both read as nothing. */
  function ValueOf<T>(f: Field<T>): Option<T>
  {
    if f.Present? then Some(f.value) else None
  }

  /** Truthiness of a nullable string, which Python and JavaScript agree on:
      `None`/`null` and the empty string are false, every other string is true. */
  predicate Truthy(v: Option<string>)
  {
    v.Some? && v.value != ""
  }

  /** `a or b` in Python, `a || b` in JavaScript, on nullable strings. */
  function Or(a: Option<string>, b: Option<string>): Option<string>
  {
    if Truthy(a) then a else b
  }

  /** The board as the rules engine serializes it: nested lists indexed
      `[x][y][z]`, each cell a string mark or null. */
  type Board = seq<seq<seq<Option<string>>>>

  /** `win_positions`: a list of `[x, y, z]` lists. */
  type WinLine = seq<seq<int>>

  /** The dictionary built by `serialize_game` and carried by `game_update`
      and by the state endpoint. */
  datatype Snapshot = Snapshot(
    board: Option<Board>,
    currentPlayer: Option<string>,
    winner: Option<string>,
    status: Option<string>,
    winPositions: Option<WinLine>)
}
